=== FILE: README.md ===
# Content-creator analysis, modelled in Dafny

This project models the computational core of a YouTube content-creator
analysis agent: the creator records and their validation rules (models.py),
the deep merge of creator dicts, the Markdown report outline and two small
helpers (utils.py), and the four analyses the agent runs over a creator dict
together with the merge of several data sources (agent.py).

Modules, in dependency order:

- `Wrappers`: `Option` and `Result`, with the failure-propagating `:-`.
- `Json`: the nested values the code passes around. A dict is an
  association list kept in insertion order, and a tree of Python dicts never
  repeats a key (`DistinctKeys`, `WellFormed`, the `Dict` subset type). It
  also defines the Python builtins the code applies to such values: `get`,
  `[]`, `len`, iteration, truthiness and numeric `sum`. The exceptions these
  builtins raise are `PyError` values.
- `Merge`: `recursive_merge` / `merge_content_creator_info`, and
  `merge_data_sources` as a left fold.
- `Render`: `process_section` as a list of line records carrying their
  heading level, and the exact text of each line.
- `Helpers`: `calculate_career_duration`, and `validate_youtube_url` and the
  `channel_url` pattern as hand-written recognisers. Each is proved equal to
  a declarative reading of its regular expression.
- `Schema`: one datatype per pydantic model, and a validity predicate that
  states the field constraints. The validator is a function listing every
  broken constraint with its location. Each constructor fills the declared
  defaults and then validates.
- `Dump`: `.dict()` on the records, and the reload that inverts it.
- `Analysis`: the four analyses and `analyze_creator`, exactly as written.
- `Corrected`: the two repairs described under "Findings", with the facts
  that compare them to the code as written.

The clock is a parameter. `currentYear` stands for `datetime.now().year`.
`now` stands for the ISO timestamp in the metadata default. Python floats
are exact reals.

Two places where the code works against its own record types:

- A life event may be dated in the current year, since `LifeEventObject`
  bounds `year` by `datetime.now().year` (models.py:66). The milestone
  frequency then divides by zero (agent.py:110) on a record that passed
  validation.
- A `BusinessObject` declares `status` and `annual_revenue`
  (models.py:85-91), and app.py:172 hands the analysis
  `creator_info.dict()`. The business summary reads `is_active` and
  `revenue` (agent.py:92-93), keys such a dump never holds, so it counts no
  active business and no revenue.

`Analysis` models the code as written. `Corrected` carries the repaired
behaviour, and lemmas relate the two versions.

## Model

| member | source | states |
|---|---|---|
| Merge.MergeCreatorInfo | utils.py:68-100 | The merge of two dicts is a dict. Its keys are those of either source: the first source's keys keep their places, then the second source's new keys follow in its order. A key in only one source keeps that source's value. A shared key holds the recursive merge of both values. |
| Merge.MergeEntriesSpec | utils.py:89-95 | The dict branch, walked over the update's entries in order, leaves at every key exactly what `Combine` of the two lookups prescribes. Keys keep their places and new ones are appended. |
| Merge.MergeValue | utils.py:88-98 | `recursive_merge` itself. It carries no contract of its own: `Merge.MergeValueCases` gives its three cases and `Merge.MergeValueWellFormed` its key invariant. |
| Merge.MergeValueCases | utils.py:88-98 | There are three cases. Two dicts give a dict over the union of their keys. Two lists give the base list followed by the update list, with no deduplication. Any other pairing, including a type mismatch, gives the update unchanged. |
| Merge.MergeIdentity | utils.py:86-95 | Merging an empty update gives the base back. Merging into an empty base gives the update back. |
| Merge.MergeDisjoint | utils.py:90-94 | An update whose keys are all new is appended after the base, in its own order. |
| Merge.MergeAssociativeDisjoint | utils.py:88-100 | For dicts with pairwise disjoint keys, merging is associative. |
| Merge.ListOrderFollowsCallOrder | utils.py:96-97 | List concatenation follows call order, so swapping the arguments changes the result. |
| Merge.MergeValueWellFormed | utils.py:88-98 | Merging two well-formed trees gives a well-formed tree: no dict at any depth repeats a key. |
| Merge.MergeDataSources | agent.py:150-154 | The loop computes the left fold `merge(...merge(merge({}, s1), s2)..., sn)` in argument order. The result is a dict whose keys are exactly those of all the sources. |
| Merge.MergeAll | agent.py:150-154 | The left fold of the merge over the sources, starting from `{}`. It carries no contract of its own: `Merge.MergeDataSources` proves the loop computes it and `Merge.MergeAllSingle` gives the one-source case. |
| Merge.MergeAllSingle | agent.py:150-154 | A single source passes through the fold unchanged. |
| Render.Render | utils.py:36-57 | The report begins with the fixed title line. |
| Render.Section | utils.py:38-54 | A section has at least one line. A dict or a list opens with a heading at the section's level carrying its key; a scalar is exactly one `**Key:** value` line. |
| Render.Text | utils.py:36-54 | Every line's text ends with a newline. A heading's text is a newline, `level` hashes and a space; a bullet starts with `- `; a key-value line starts with `**` and ends with a blank line. |
| Render.ItemLines | utils.py:48-52 | A list item's lines open with an anonymous heading one level below the list when the item is a dict, and are the single bullet of the item otherwise. |
| Render.ItemLinesShape | utils.py:48-52 | A non-dict item is exactly one bullet. A dict item is its anonymous heading followed by its entries, which form an outline one level deeper still. |
| Render.ListItemLines | utils.py:48-52 | Item `j`'s lines sit among the lines of all the items between those of the items before it and those of the items after it, the first item at the start and the last at the end. |
| Render.ListHeadingKeys | utils.py:46-52 | One level below a list's heading there is exactly one heading per dict item, with an empty key, in order, and none for any other item. |
| Render.SectionOutline | utils.py:38-54 | A section has no heading above its own level. Every deeper heading has, somewhere above it, a heading exactly one level shallower, because each nested dict or list goes down one level. |
| Render.RenderOutline | utils.py:56-57 | Every heading of the report body is at level 2 or deeper, and the body skips no level. |
| Render.TopLevelHeadings | utils.py:38-57 | The level-2 headings are exactly the top-level keys whose values are dicts or lists, in their order. Nested keys never surface at level 2. |
| Render.FlatListSection | utils.py:46-52 | A list with no dict among its items renders as its heading followed by exactly one bullet per item, in order. |
| Render.OutlineIsAmbiguous | utils.py:42-54 | Two different records can give the same lines, so the report cannot be parsed back into its record. |
| Render.SpaceUnderscores | utils.py:43 | `replace('_', ' ')` keeps the length, turns every underscore into a space and leaves no underscore. |
| Render.HeadingLevelRoundTrip | utils.py:41-43 | The text of a heading gives its level back by counting leading `#`, whatever the key and the title-casing. |
| Helpers.CareerDuration | utils.py:142-157 | The duration is never negative. It is `currentYear - start_year` when the start is not later than the current year, and 0 otherwise. |
| Helpers.CareerDurationMonotone | utils.py:156-157 | `max(current_year - start_year, 0)` never decreases as the clock moves forward or the start moves back. |
| Helpers.ValidateYoutubeUrl | utils.py:122-140 | `validate_youtube_url`, written as a check of the text that follows an optional scheme and `www.`. It carries no contract of its own: `Helpers.ValidateYoutubeUrlIsPatternMatch` characterises it against the two regular expressions. |
| Helpers.ValidateYoutubeUrlIsPatternMatch | utils.py:136-140 | The recogniser accepts a URL exactly when it splits into an optional scheme, an optional `www.`, one of the four paths and a `[\w-]` character, which is what the two patterns match at the start of the string. |
| Helpers.ValidateYoutubeUrlIgnoresSuffix | utils.py:140 | `re.match` anchors only at the start: anything appended to an accepted URL keeps it accepted. |
| Helpers.HandleUrlAccepted | utils.py:133-134 | A handle URL such as `https://youtube.com/@channel` is accepted with every scheme and `www.` spelling. |
| Helpers.ChannelUrlIsPatternMatch | models.py:114 | The `channel_url` recogniser accepts exactly the strings the field's pattern matches. |
| Helpers.BareChannelUrlDisagrees | models.py:114 | A bare channel name after `youtube.com/`, as in the schema's example URL, passes the `channel_url` pattern but fails `validate_youtube_url`. |
| Schema.CheckLength | models.py:17 | A `min_length`/`max_length` check reports nothing exactly when the length is within the bounds. Otherwise it reports one violation at the field: too short below the minimum, too long above the maximum. |
| Schema.CheckOptLength | models.py:20 | The same check on an optional field: an absent value is always accepted, and a present one is checked as above. |
| Schema.CheckRange | models.py:33 | A `ge`/`le` check reports nothing exactly when the number is within the bounds. Otherwise it reports one violation at the field: too small below `ge`, too large above `le`. |
| Schema.CheckChoice | models.py:69 | An anchored alternation pattern reports nothing exactly when the text is one of the alternatives, and otherwise one violation at the field. |
| Schema.ValueViolations | models.py:17-20 | There are no violations exactly when the name length is in [2, 50] and the description is absent or at most 500 characters. Every violation sits at one field of the record (`Direct`). The blamed fields (`Heads`) are exactly those whose own constraint is broken: "name" when its length is outside [2, 50], "description" when it is present and longer than 500. |
| Schema.ChallengeViolations | models.py:32-35 | There are no violations exactly when the challenge is valid. Every violation sits at one field of the record (`Direct`). The blamed fields (`Heads`) are exactly those whose own constraint is broken: "description" (length outside [10, 200]), "year" (outside [2005, currentYear]), "learnings" (length outside [10, 500]), and "duration" only when it is present and outside [1, 120]. |
| Schema.AchievementViolations | models.py:47-53 | There are no violations exactly when the achievement is valid. Every violation sits at one field of the record (`Direct`). The blamed fields (`Heads`) are exactly those whose own constraint is broken: "description" (length outside [10, 200]), "year" (outside [2005, currentYear]) and "impact" (length outside [10, 500]). `metrics` is never blamed. |
| Schema.LifeEventViolations | models.py:65-69 | There are no violations exactly when the event is valid. Every violation sits at one field of the record (`Direct`). The blamed fields (`Heads`) are exactly those whose own constraint is broken: "name" (length outside [2, 100]), "year" (outside [1900, currentYear]), "description" and "impact" (length outside [10, 500]), and "category" only when it is present and not one of the three allowed values. |
| Schema.YearStartedViolations | models.py:85-97 | Nothing is reported exactly when the year is in [2005, currentYear]. Otherwise the report is the single range violation at "year_started": too small below 2005, too large above currentYear. The validator's own error never appears, because the range runs first. |
| Schema.BusinessViolations | models.py:83-97 | There are no violations exactly when the business is valid. Every violation sits at one field of the record (`Direct`). The blamed fields (`Heads`) are exactly those whose own constraint is broken: "name", "description", "year_started" (outside [2005, currentYear]), "annual_revenue" only when present and negative, "business_type" and "status" when not among the allowed values. |
| Schema.BusinessValidatorRedundant | models.py:93-97 | The business validator's own error is never reported: the range has already rejected every year it would reject. |
| Schema.PersonalViolations | models.py:112-118 | There are no violations exactly when the personal information is valid. Every violation sits at one field of the record (`Direct`). The blamed fields (`Heads`) are exactly those whose own constraint is broken: "full_name", "channel_name", "niche" (lengths), "channel_url" when the pattern does not match, "start_year" (outside [2005, currentYear]), "country" only when present and its length is outside [2, 56], and "team_size" (outside [1, 1000]). |
| Schema.ListViolations | models.py:135-139 | A list field has no violations exactly when every element is valid. Each violation is located at the field name and the index of an element that is invalid. |
| Schema.CreatorViolations | models.py:134-139 | A creator has no violations exactly when its personal information and every element of every list are valid. The top-level fields blamed are exactly the broken ones: "personal_info" when the personal information is invalid, and each list field when one of its elements is invalid. |
| Schema.NewValue | models.py:17-20 | The constructor succeeds exactly on valid fields, keeps them, and defaults `origin` to "Personal belief". A failure carries exactly the violations of the record built with that default. |
| Schema.NewChallenge | models.py:32-35 | The constructor succeeds exactly on a valid challenge, whose year is then within [2005, currentYear]. A failure carries exactly that challenge's violations. |
| Schema.NewAchievement | models.py:47-53 | The constructor succeeds exactly on bounded fields, and `metrics` defaults to an empty dict. A failure carries exactly the violations of the record built with that default. |
| Schema.NewLifeEvent | models.py:65-69 | The constructor succeeds exactly on a valid event, whose year is then within [1900, currentYear]. A failure carries exactly that event's violations. |
| Schema.NewBusiness | models.py:83-91 | The constructor succeeds exactly on a valid business, which then holds the given fields, and `status` defaults to "active". A built business has an allowed type and status. A failure carries exactly the violations of the record built with the defaults. |
| Schema.NewPersonal | models.py:112-118 | The constructor succeeds exactly on valid fields, which the record then holds, and `team_size` defaults to 1. A built record has a matching URL and a team size in [1, 1000]. A failure carries exactly the violations of the record built with the default. |
| Schema.NewCreator | models.py:134-145 | The constructor succeeds exactly when the creator with defaults filled in is valid, and then returns that creator. Every given field is kept and every omitted list (values, challenges, achievements, life events, businesses) is empty, and the metadata defaults to version "1.0". A failure carries exactly the violations of that creator, so at least one. |
| Dump.LoadDumpCreator | utils.py:116-117 | Reading a record's `.dict()` back rebuilds the same record. |
| Analysis.CountOf | agent.py:81-84 | `len(data.get(key, []))` is 0 for a missing key and the stored value's length otherwise. It succeeds exactly when the key is missing or its value has a length. |
| Analysis.BasicStats | agent.py:78-85 | The four stats, in order, under their keys, each equal to the corresponding count. The stats fail, with a TypeError, exactly when one count does. |
| Analysis.MergedCountsAdd | agent.py:81-84 | When both merged sources hold a list under a key, the merged count is the sum of the two counts. |
| Analysis.CountActive | agent.py:92 | The active count is the number of entries that pass the activity test, so it is at most the number of entries. It raises AttributeError exactly when some entry is not a dict. |
| Analysis.SumRevenue | agent.py:93 | The sum succeeds exactly when every entry's revenue can be read. A failure is the failure of some entry. |
| Analysis.SumRevenuePointwise | agent.py:93 | When the revenue of each entry is known, the sum is the total of those revenues. |
| Analysis.AverageRevenue | agent.py:93 | The average is exactly 0 for no businesses, never a division error. Otherwise it is the revenue sum divided by the count, and it fails exactly when the sum does. |
| Analysis.AverageRevenueWithin | agent.py:93 | When every revenue lies within [lo, hi], so does the average. |
| Analysis.AnalyzeBusinessWith | agent.py:87-94 | The summary's keys and values, and exactly when it succeeds. `total_businesses` is the number of entries. `active_businesses` is the number of active entries and is at most the total. `average_revenue` is 0 or the exact mean. A failure is a TypeError, an AttributeError or some entry's revenue failure. |
| Analysis.Revenue | agent.py:93 | `b.get("revenue", 0)` raises AttributeError on a non-dict and counts a missing revenue as 0. A present int, float or bool revenue is read as its number (a bool as 1 or 0). Any other revenue raises TypeError. |
| Analysis.AnalyzeBusiness | agent.py:87-94 | With no `businesses` key the summary is all zeros. Failures are TypeError or AttributeError only. |
| Analysis.Names | agent.py:100 | The names are in input order, one per value, each stored under "name" in its value. A failure is that of the first value without a name. |
| Analysis.AssessValues | agent.py:96-102 | The core values are the names, and the score is the count divided by 10. It fails exactly when the values cannot be iterated or named, with TypeError or KeyError("name"). |
| Analysis.ScoreExceedsOne | agent.py:101 | The score is not capped: more than ten named values score above 1. |
| Analysis.YearKey | agent.py:107 | `x.get("year", 0)`: a dict's integer year, or 0 when the year is missing. A non-dict raises AttributeError. |
| Analysis.YearKeys | agent.py:106-110 | The keys of all events are computed, one per event, before any comparison. An event that is not a dict fails with AttributeError wherever it stands, since its key is computed before any year is compared. When every event is a dict, a year that is not an int fails with the TypeError that the comparison or the subtraction at agent.py:110 raises. |
| Analysis.KeysInOrder | agent.py:106-107 | The keys event by event, one per event and in order. A failure is the error of the first event whose key is refused. |
| Analysis.NonDictAfterStringYear | agent.py:106-107 | `[{"year": "2018"}, 5]` fails with AttributeError, because the second key is computed before the string year is ever compared. |
| Analysis.SortByKey | agent.py:106-107 | The result is non-decreasing by year and a permutation of the input, of the same length. |
| Analysis.SortStable | agent.py:106-107 | The sort is stable: the events sharing any year keep their input order. |
| Analysis.MinKeyIsMin | agent.py:109 | The reference minimum is at most every event's year and is the year of some event. |
| Analysis.SortFirstIsMin | agent.py:106-109 | The first sorted event carries the smallest year and is one of the input events, whatever the input order. |
| Analysis.Timeline | agent.py:106-111 | With no events the timeline is None and 0. Otherwise `career_start` is the minimum year and `milestone_frequency` is the count divided by `currentYear - start`. It raises ZeroDivisionError exactly when the earliest year is the current year. |
| Analysis.AnalyzeTimelines | agent.py:104-111 | Missing `life_events` gives None and 0. A non-iterable value raises TypeError. Otherwise the result is the timeline of the events. |
| Analysis.Assemble | agent.py:68-73 | `analyze_creator` succeeds exactly when all four analyses succeed, and otherwise fails with the first failure in evaluation order. Its four keys are distinct and in order, each holding its analysis. |
| Analysis.ReportHeadings | agent.py:68-73 | The report of an analysis has exactly the four analyses as its level-2 headings, in order. |
| Corrected.TimelineFixed | agent.py:110 | With the divisor floored at one year, the timeline never raises ZeroDivisionError. It succeeds exactly when the event years can be read. |
| Corrected.TimelineFixedBounds | agent.py:110 | The repaired frequency is positive and at most the number of events. |
| Corrected.TimelineFixedAgrees | agent.py:110 | The repair changes nothing where the code as written succeeds with an earliest year in the past. |
| Corrected.TimelineFixedBoundary | agent.py:110 | Wherever the code as written divides by zero, the repair reports a frequency equal to the number of events. |
| Corrected.SameYearEvent | agent.py:110 | With one event dated this year, the code as written raises and the repair reports frequency 1. |
| Corrected.AnalyzeTimelinesFixed | agent.py:104-111 | The repaired timeline analysis never raises ZeroDivisionError. |
| Corrected.ValidRecordRaises | agent.py:110 | `analyze_creator` raises ZeroDivisionError on the dump of a valid record whose life events all date from the current year. `LifeEventObject` accepts such a year. |
| Corrected.AnnualRevenue | models.py:86 | The record's `annual_revenue` is read, with None counting as 0. |
| Corrected.DumpedBusiness | agent.py:92-93 | On a dumped business, `is_active` is never found and `revenue` reads as 0. The status test and `annual_revenue` read the record's own fields. |
| Corrected.DumpedActive | agent.py:92 | Over dumped businesses, `is_active` marks none, and the status marks exactly the records whose status is "active". |
| Corrected.DumpedRevenues | agent.py:93 | Over dumped businesses, the `revenue` sum is 0, and the `annual_revenue` sum is the records' total. |
| Corrected.BusinessSummaryIgnoresRecords | agent.py:87-94 | As written, the summary of every dumped record counts no active business and averages a revenue of 0. |
| Corrected.ActiveBusinessOverlooked | agent.py:92-93 | Take one active business earning 1000. As written it counts 0 active with an average of 0; repaired it counts 1 active with an average of 1000. |
| Corrected.BusinessSummaryReadsRecords | agent.py:87-94 | Repaired, the summary of every dumped record counts the businesses whose status is "active" and averages their annual revenues. |
| Corrected.AnalyzeCreatorFixed | agent.py:68-73 | The analysis with both repairs never fails with ZeroDivisionError. |
| Corrected.AnalyzeCreatorFixedTotal | agent.py:52-76 | The repaired analysis succeeds on the dump of every record. |

## Left out

- app.py: it is Streamlit interface code with no logic of its own.
- The file system:
  - the directory creation, file write and `RuntimeError` wrapping of `save_output_to_markdown` (utils.py:25-33, 59-66);
  - `generate_report` (agent.py:113-136);
  - `load_config` (utils.py:167-183).

  `Render.Document` gives the text that would be written.
- The clock and agent state:
  - `datetime.now()` is the `currentYear` and `now` parameters;
  - `update_activity`, `last_active` and `analysis_history` (agent.py:43-50, 62, 75) are bookkeeping that the results do not depend on.
- `ensure_dict`, `AgentConfig` and `datetime_converter` (utils.py:102-120, 159-165; agent.py:19-30): these are pydantic conversion glue. A record reaches the analysis as its dump (`Dump.DumpCreator`), and a dict reaches it unchanged. The `ValueError` for other inputs is not modelled.
- `str.title()` and `str(value)` are function parameters of `Render.Text`. Their casing rules are not modelled.
- Helpers.ValidateYoutubeUrlIsPatternMatch: `\w` is read as ASCII letters, digits and underscore. Python's `\w` also matches other Unicode letters and digits.
- Analysis.YearKey: a present year that is not an int gives TypeError. Python would sort float and bool years among ints and carry on. Any other year raises TypeError in Python too, later: in the sort or at the subtraction on agent.py:110. That is why `Analysis.YearKeys` reports it only when every event is a dict.
- Schema.NewCreator re-checks the nested records it is given. Pydantic accepts a nested model instance without validating it again, and it does not validate assignment. A nested instance that was changed after it was built is therefore accepted by Python and may be rejected by the model.
- Pydantic's lax coercion, for example "2020" to 2020, and missing required fields are not modelled. The constructors take typed arguments, and `Dump.LoadCreator` reads only what a dump holds.
- Pydantic's error messages are not modelled. A violation records only its location and the rule broken.
- Schema.ValueViolations, Schema.ChallengeViolations, Schema.AchievementViolations, Schema.LifeEventViolations, Schema.BusinessViolations, Schema.PersonalViolations and Schema.CreatorViolations state which fields are blamed, not the order of the list. The bodies report in field order, as pydantic does.
- Aliasing in the merge is not modelled. `source1.copy()` is shallow (utils.py:86). `recursive_merge` updates nested dicts in place and stores the update's values by reference (utils.py:88-95). The model is functional: each place in the data is merged on its own, and no input changes. The two therefore differ whenever one nested dict is reachable from two places of the merged data or of the caller's sources.
  - Within one source: merging `{"a": D, "b": D}` with `{"a": {"x": 1}}` adds "x" to D itself, so "b" changes too in Python.
  - Across sources: `merge_data_sources({"a": D}, {"b": D}, {"a": {"x": 1}})` gives "b" the key "x" in the same way.
  - In both cases the caller's D is changed as well.
- Floats are exact reals, and their rounding is not modelled.
- Schema.ValueViolations, Schema.ChallengeViolations, Schema.AchievementViolations, Schema.LifeEventViolations, Schema.YearStartedViolations, Schema.BusinessViolations, Schema.PersonalViolations, Schema.CreatorViolations, Schema.BusinessValidatorRedundant and Corrected.ValidRecordRaises read one `currentYear`. In Python the `le=datetime.now().year` bounds (models.py:33, 48, 66, 85, 116) are fixed once, when models.py is imported. The `year_started` validator (models.py:95), the timeline divisor (agent.py:110) and the career duration (utils.py:156) read the clock on every call. A process that runs across a new year therefore rejects the new year through the stale bound while the validator would accept it; the model cannot show that.
- Render: no claim is made that the report can be parsed back into its record. `Render.OutlineIsAmbiguous` shows that it cannot.
- Analysis.AnalyzeCreator carries no contract of its own. Its behaviour is stated by `Analysis.Assemble` and the four analyses' contracts, and `Corrected.ValidRecordRaises` is about it directly.
- Corrected.AnalyzeBusinessFixed states only the missing-key case in its own contract. The rest comes from `Analysis.AnalyzeBusinessWith`, and `Corrected.BusinessSummaryReadsRecords` covers dumped records.

## Findings

| source | as written | input that shows it | evidently intended | confidence | as-written member | corrected member |
|---|---|---|---|---|---|---|
| agent.py:110 | `len(events) / (datetime.now().year - events[0]["year"])` has no zero guard | one life event dated the current year, which `LifeEventObject` accepts (models.py:66) | a divisor of at least one year, giving a frequency equal to the event count | not executed; high | Corrected.SameYearEvent | Corrected.TimelineFixed |
| agent.py:92-93 | the business summary reads `is_active` and `revenue`, keys a `BusinessObject` dump never has | a record with one business, status "active" and annual_revenue 1000.0 | count the businesses whose status is "active", and average `annual_revenue` | not executed; medium, because the sample dict in agent.py:170-172 does use `is_active` and `revenue` | Corrected.ActiveBusinessOverlooked | Corrected.BusinessSummaryReadsRecords |

=== FILE: analysis.dfy ===
/** The four analyses of `ContentAnalysisAgent` (agent.py) over a creator
    dict, read exactly as the methods read it: by `get` with defaults, by
    subscript, by `len` and by iteration, raising on ill-shaped input. The
    clock's year is the `currentYear` parameter. Averages and scores are
    exact rationals. */
module Analysis {
  import opened Wrappers
  import opened Json
  import Merge
  import Render

  /* ---------------------------------------------------------------- */
  /* _calculate_basic_stats                                            */
  /* ---------------------------------------------------------------- */

  /** `len(data.get(key, []))`: zero for a missing key, the length of what
      is stored otherwise, a TypeError for a value without a length. */
  function CountOf(data: seq<Entry>, key: string): (r: Result<nat, PyError>)
    ensures Lookup(data, key).None? ==> r == Success(0)
    ensures Lookup(data, key).Some? ==> r == Len(Lookup(data, key).value)
    ensures r.Success? <==> Lookup(data, key).None? || Iterate(Lookup(data, key).value).Success?
  {
    Len(Get(data, key, Arr([])))
  }

  const StatKeys: seq<string> := ["total_life_events", "total_challenges", "total_achievements", "business_count"]

  /** `_calculate_basic_stats(data)`: the four counts, in this order. */
  function BasicStats(data: seq<Entry>): (r: Result<seq<Entry>, PyError>)
    ensures r.Failure? ==> r.error == TypeError
    ensures r.Success? <==>
      && CountOf(data, "life_events").Success? && CountOf(data, "challenges").Success?
      && CountOf(data, "achievements").Success? && CountOf(data, "businesses").Success?
    ensures r.Success? ==> Keys(r.value) == StatKeys
    ensures r.Success? ==>
      && r.value[0].1 == Int(CountOf(data, "life_events").value)
      && r.value[1].1 == Int(CountOf(data, "challenges").value)
      && r.value[2].1 == Int(CountOf(data, "achievements").value)
      && r.value[3].1 == Int(CountOf(data, "businesses").value)
  {
    var lifeEvents :- CountOf(data, "life_events");
    var challenges :- CountOf(data, "challenges");
    var achievements :- CountOf(data, "achievements");
    var businesses :- CountOf(data, "businesses");
    Success([("total_life_events", Int(lifeEvents)), ("total_challenges", Int(challenges)),
             ("total_achievements", Int(achievements)), ("business_count", Int(businesses))])
  }

  /** Merging two sources whose lists sit under the same key adds their
      counts: the merged list is the two lists joined. */
  lemma MergedCountsAdd(a: seq<Entry>, b: seq<Entry>, key: string, xs: seq<Value>, ys: seq<Value>)
    requires DistinctKeys(a) && DistinctKeys(b)
    requires Lookup(a, key) == Some(Arr(xs)) && Lookup(b, key) == Some(Arr(ys))
    ensures CountOf(Merge.MergeCreatorInfo(a, b), key) == Success(|xs| + |ys|)
  {
    MergedListLookup(a, b, key, xs, ys);
    CountOfList(Merge.MergeCreatorInfo(a, b), key, xs + ys);
  }

  lemma CountOfList(data: seq<Entry>, key: string, zs: seq<Value>)
    requires Lookup(data, key) == Some(Arr(zs))
    ensures CountOf(data, key) == Success(|zs|)
  {
  }

  lemma MergedListLookup(a: seq<Entry>, b: seq<Entry>, key: string, xs: seq<Value>, ys: seq<Value>)
    requires DistinctKeys(a) && DistinctKeys(b)
    requires Lookup(a, key) == Some(Arr(xs)) && Lookup(b, key) == Some(Arr(ys))
    ensures Lookup(Merge.MergeCreatorInfo(a, b), key) == Some(Arr(xs + ys))
  {
    assert key in Keys(a) && key in Keys(b);
  }

  /* ---------------------------------------------------------------- */
  /* _analyze_business                                                 */
  /* ---------------------------------------------------------------- */

  /** The positions of the entries that count as active. */
  ghost function ActiveSet(items: seq<Value>, isActive: Value -> bool): set<nat> {
    set i: nat | i < |items| && isActive(items[i])
  }

  lemma ActiveSetSnoc(items: seq<Value>, isActive: Value -> bool)
    requires |items| > 0
    ensures |ActiveSet(items, isActive)| ==
      |ActiveSet(items[..|items| - 1], isActive)| + if isActive(items[|items| - 1]) then 1 else 0
  {
    var init := items[..|items| - 1];
    assert forall i :: 0 <= i < |init| ==> init[i] == items[i];
    assert ActiveSet(items, isActive) ==
      ActiveSet(init, isActive) + (if isActive(items[|items| - 1]) then {|items| - 1} else {});
  }

  /** `sum(1 for b in businesses if <b is active>)`, where the test calls
      `b.get`: the number of active entries; the first entry that is not a
      dict raises. */
  function CountActive(items: seq<Value>, isActive: Value -> bool): (r: Result<nat, PyError>)
    ensures r.Success? <==> forall i :: 0 <= i < |items| ==> items[i].Obj?
    ensures r.Failure? ==> r.error == AttributeError
    ensures r.Success? ==> r.value == |ActiveSet(items, isActive)| && r.value <= |items|
  {
    if |items| == 0 then
      assert ActiveSet(items, isActive) == {};
      Success(0)
    else
      var init := items[..|items| - 1];
      var last := items[|items| - 1];
      assert forall i :: 0 <= i < |init| ==> init[i] == items[i];
      var n :- CountActive(init, isActive);
      if !last.Obj? then Failure(AttributeError)
      else
        ActiveSetSnoc(items, isActive);
        Success(n + if isActive(last) then 1 else 0)
  }

  /** `sum(<revenue of b> for b in businesses)`: the first entry whose
      revenue cannot be read or added raises. */
  function SumRevenue(items: seq<Value>, revenue: Value -> Result<real, PyError>): (r: Result<real, PyError>)
    ensures r.Success? <==> forall i :: 0 <= i < |items| ==> revenue(items[i]).Success?
    ensures r.Failure? ==> exists i :: 0 <= i < |items| && revenue(items[i]) == Failure(r.error)
  {
    if |items| == 0 then Success(0.0)
    else
      var init := items[..|items| - 1];
      assert forall i :: 0 <= i < |init| ==> init[i] == items[i];
      var s :- SumRevenue(init, revenue);
      var x :- revenue(items[|items| - 1]);
      Success(s + x)
  }

  lemma SumRevenueSnoc(items: seq<Value>, revenue: Value -> Result<real, PyError>, s: real, x: real)
    requires |items| > 0
    requires SumRevenue(items[..|items| - 1], revenue) == Success(s) && revenue(items[|items| - 1]) == Success(x)
    ensures SumRevenue(items, revenue) == Success(s + x)
  {
  }

  /** The sum of a sequence of numbers, left to right. */
  function Total(xs: seq<real>): real {
    if |xs| == 0 then 0.0 else Total(xs[..|xs| - 1]) + xs[|xs| - 1]
  }

  lemma {:induction false} TotalOfZeros(xs: seq<real>)
    requires forall i :: 0 <= i < |xs| ==> xs[i] == 0.0
    ensures Total(xs) == 0.0
  {
    if |xs| > 0 {
      TotalOfZeros(xs[..|xs| - 1]);
    }
  }

  /** When each entry's revenue is known, `sum` adds them up. */
  lemma {:induction false} SumRevenuePointwise(items: seq<Value>, revenue: Value -> Result<real, PyError>, xs: seq<real>)
    requires |xs| == |items|
    requires forall i :: 0 <= i < |items| ==> revenue(items[i]) == Success(xs[i])
    ensures SumRevenue(items, revenue) == Success(Total(xs))
  {
    if |items| > 0 {
      var n := |items| - 1;
      assert forall i :: 0 <= i < n ==> items[..n][i] == items[i] && xs[..n][i] == xs[i];
      SumRevenuePointwise(items[..n], revenue, xs[..n]);
      SumRevenueSnoc(items, revenue, Total(xs[..n]), xs[n]);
    }
  }

  /** `n` copies of `r` added up, which keeps the bounds below linear. */
  function Times(n: nat, r: real): real {
    if n == 0 then 0.0 else Times(n - 1, r) + r
  }

  lemma {:induction false} TimesIsProduct(n: nat, r: real)
    ensures Times(n, r) == n as real * r
  {
    if n > 0 {
      TimesIsProduct(n - 1, r);
      assert n as real * r == (n - 1) as real * r + r;
    }
  }

  /** The sum of revenues each within `[lo, hi]` lies within `n` times each
      bound. */
  lemma {:induction false} SumRevenueBounds(items: seq<Value>, revenue: Value -> Result<real, PyError>, lo: real, hi: real)
    requires forall i :: 0 <= i < |items| ==> revenue(items[i]).Success? && lo <= revenue(items[i]).value <= hi
    ensures SumRevenue(items, revenue).Success?
    ensures Times(|items|, lo) <= SumRevenue(items, revenue).value <= Times(|items|, hi)
  {
    if |items| > 0 {
      var init := items[..|items| - 1];
      assert forall i :: 0 <= i < |init| ==> init[i] == items[i];
      SumRevenueBounds(init, revenue, lo, hi);
      assert SumRevenue(items, revenue).value == SumRevenue(init, revenue).value + revenue(items[|items| - 1]).value;
    }
  }

  lemma DivideBounds(s: real, n: real, lo: real, hi: real)
    requires n > 0.0 && n * lo <= s <= n * hi
    ensures lo <= s / n <= hi
  {
    assert s / n * n == s;
  }

  /** The `average_revenue` expression over an iterable `businesses`: 0 when
      it is empty (falsy), the exact mean otherwise. */
  function AverageRevenue(businesses: Value, items: seq<Value>, revenue: Value -> Result<real, PyError>): (r: Result<Value, PyError>)
    requires Iterate(businesses) == Success(items)
    ensures |items| == 0 ==> r == Success(Int(0))
    ensures |items| > 0 ==> r.Success? == SumRevenue(items, revenue).Success?
    ensures |items| > 0 && r.Success? ==> r.value == Real(SumRevenue(items, revenue).value / |items| as real)
    ensures r.Failure? ==> r == SumRevenue(items, revenue).PropagateFailure()
  {
    if !Truthy(businesses) then Success(Int(0))
    else
      var s :- SumRevenue(items, revenue);
      Success(Real(s / |items| as real))
  }

  /** The mean of revenues that each lie within `[lo, hi]` lies there too. */
  lemma AverageRevenueWithin(businesses: Value, items: seq<Value>, revenue: Value -> Result<real, PyError>, lo: real, hi: real)
    requires Iterate(businesses) == Success(items) && |items| > 0
    requires forall i :: 0 <= i < |items| ==> revenue(items[i]).Success? && lo <= revenue(items[i]).value <= hi
    ensures AverageRevenue(businesses, items, revenue).Success?
    ensures AverageRevenue(businesses, items, revenue).value.Real?
    ensures lo <= AverageRevenue(businesses, items, revenue).value.r <= hi
  {
    SumRevenueBounds(items, revenue, lo, hi);
    TimesIsProduct(|items|, lo);
    TimesIsProduct(|items|, hi);
    DivideBounds(SumRevenue(items, revenue).value, |items| as real, lo, hi);
  }

  /** The business summary with a given activity test and revenue reader:
      the count, the active count and the average revenue of
      `data.get("businesses", [])`, evaluated in that order. */
  function AnalyzeBusinessWith(data: seq<Entry>, isActive: Value -> bool, revenue: Value -> Result<real, PyError>): (r: Result<seq<Entry>, PyError>)
    ensures var b := Get(data, "businesses", Arr([]));
      r.Success? <==>
        && Iterate(b).Success?
        && (forall i :: 0 <= i < |Iterate(b).value| ==> Iterate(b).value[i].Obj?)
        && (|Iterate(b).value| == 0 || SumRevenue(Iterate(b).value, revenue).Success?)
    ensures r.Success? ==>
      var items := Iterate(Get(data, "businesses", Arr([]))).value;
      && Keys(r.value) == ["total_businesses", "active_businesses", "average_revenue"]
      && r.value[0].1 == Int(|items|)
      && r.value[1].1 == Int(|ActiveSet(items, isActive)|)
      && |ActiveSet(items, isActive)| <= |items|
      && r.value[2].1 == (if |items| == 0 then Int(0) else Real(SumRevenue(items, revenue).value / |items| as real))
    ensures r.Failure? ==>
      var b := Get(data, "businesses", Arr([]));
      || r.error == TypeError || r.error == AttributeError
      || (Iterate(b).Success? &&
          exists i :: 0 <= i < |Iterate(b).value| && revenue(Iterate(b).value[i]) == Failure(r.error))
  {
    var businesses := Get(data, "businesses", Arr([]));
    var total :- Len(businesses);
    var items := Iterate(businesses).value;
    var active :- CountActive(items, isActive);
    var average :- AverageRevenue(businesses, items, revenue);
    Success([("total_businesses", Int(total)), ("active_businesses", Int(active)), ("average_revenue", average)])
  }

  /** `b.get("is_active", False)` is truthy. */
  predicate IsActive(b: Value) {
    b.Obj? && Truthy(Get(b.fields, "is_active", Bool(false)))
  }

  /** `b.get("revenue", 0)` as a number; `get` on a non-dict raises. */
  function Revenue(b: Value): (r: Result<real, PyError>)
    ensures !b.Obj? ==> r == Failure(AttributeError)
    ensures b.Obj? && "revenue" !in Keys(b.fields) ==> r == Success(0.0)
    ensures b.Obj? ==> r.Failure? ==> r.error == TypeError
    ensures b.Obj? && Lookup(b.fields, "revenue").Some? ==>
      var x := Lookup(b.fields, "revenue").value;
      && (r.Success? <==> x.Int? || x.Real? || x.Bool?)
      && (x.Int? ==> r == Success(x.i as real))
      && (x.Real? ==> r == Success(x.r))
      && (x.Bool? ==> r == Success(if x.b then 1.0 else 0.0))
  {
    if !b.Obj? then Failure(AttributeError)
    else AsNumber(Get(b.fields, "revenue", Int(0)))
  }

  /** `_analyze_business(data)`, reading `is_active` and `revenue`. */
  function AnalyzeBusiness(data: seq<Entry>): (r: Result<seq<Entry>, PyError>)
    ensures "businesses" !in Keys(data) ==>
      r == Success([("total_businesses", Int(0)), ("active_businesses", Int(0)), ("average_revenue", Int(0))])
    ensures r.Failure? ==> r.error == TypeError || r.error == AttributeError
  {
    AnalyzeBusinessWith(data, IsActive, Revenue)
  }

  /* ---------------------------------------------------------------- */
  /* _assess_values                                                    */
  /* ---------------------------------------------------------------- */

  /** `[v["name"] for v in values]`: the names in order; the first entry
      that is not a dict, or is a dict without "name", raises. */
  function Names(items: seq<Value>): (r: Result<seq<Value>, PyError>)
    ensures r.Success? <==> forall i :: 0 <= i < |items| ==> Subscript(items[i], "name").Success?
    ensures r.Success? ==> |r.value| == |items|
    ensures r.Success? ==> forall i :: 0 <= i < |items| ==> ("name", r.value[i]) in items[i].fields
    ensures r.Failure? ==> exists j :: 0 <= j < |items| && Subscript(items[j], "name") == Failure(r.error)
                                      && forall i :: 0 <= i < j ==> Subscript(items[i], "name").Success?
  {
    if |items| == 0 then Success([])
    else
      var init := items[..|items| - 1];
      assert forall i :: 0 <= i < |init| ==> init[i] == items[i];
      var ns :- Names(init);
      var n :- Subscript(items[|items| - 1], "name");
      Success(ns + [n])
  }

  /** `_assess_values(data)`: the value names and `len(values) / 10`. */
  function AssessValues(data: seq<Entry>): (r: Result<seq<Entry>, PyError>)
    ensures var v := Get(data, "values", Arr([]));
      r.Success? <==> Iterate(v).Success? && Names(Iterate(v).value).Success?
    ensures r.Success? ==>
      var items := Iterate(Get(data, "values", Arr([]))).value;
      && Keys(r.value) == ["core_values", "value_consistency_score"]
      && r.value[0].1 == Arr(Names(items).value)
      && r.value[1].1 == Real(|items| as real / 10.0)
    ensures r.Failure? ==> r.error == TypeError || r.error == KeyError("name")
  {
    var values := Get(data, "values", Arr([]));
    var items :- Iterate(values);
    var names :- Names(items);
    Success([("core_values", Arr(names)), ("value_consistency_score", Real(|items| as real / 10.0))])
  }

  /** The consistency score is not capped: eleven named values score above 1. */
  lemma ScoreExceedsOne(data: seq<Entry>, items: seq<Value>)
    requires Lookup(data, "values") == Some(Arr(items))
    requires |items| > 10
    requires forall i :: 0 <= i < |items| ==> Subscript(items[i], "name").Success?
    ensures AssessValues(data).Success?
    ensures AssessValues(data).value[1].1.r > 1.0
  {
    assert Get(data, "values", Arr([])) == Arr(items);
  }

  /* ---------------------------------------------------------------- */
  /* _analyze_timelines                                                */
  /* ---------------------------------------------------------------- */

  /** An event with its sort key. */
  type Keyed = (int, Value)

  /** `x.get("year", 0)` as a sort key: a dict's integer year, 0 when the
      year is missing; anything else is refused (see the README). */
  function YearKey(x: Value): (r: Result<int, PyError>)
    ensures r.Success? <==> x.Obj? && (Lookup(x.fields, "year").None? || Lookup(x.fields, "year").value.Int?)
    ensures !x.Obj? ==> r == Failure(AttributeError)
    ensures r.Success? && "year" in Keys(x.fields) ==> Subscript(x, "year") == Success(Int(r.value))
    ensures r.Success? && "year" !in Keys(x.fields) ==> r.value == 0
    ensures r.Failure? ==> r.error == AttributeError || r.error == TypeError
  {
    if !x.Obj? then Failure(AttributeError)
    else match Get(x.fields, "year", Int(0))
      case Int(y) => Success(y)
      case _ => Failure(TypeError)
  }

  /** The sort keys of all events, computed before any comparison, as
      `sorted` does. Computing a key fails only on an event that is not a
      dict, with AttributeError. A year that is not an int is refused with
      the TypeError that Python raises once it compares or subtracts that
      year, so it is reported only when every event is a dict. */
  function YearKeys(items: seq<Value>): (r: Result<seq<Keyed>, PyError>)
    ensures r.Success? <==> forall i :: 0 <= i < |items| ==> YearKey(items[i]).Success?
    ensures r.Success? ==> |r.value| == |items|
    ensures r.Success? ==> forall i :: 0 <= i < |items| ==> r.value[i] == (YearKey(items[i]).value, items[i])
    ensures (exists i :: 0 <= i < |items| && !items[i].Obj?) ==> r == Failure(AttributeError)
    ensures (forall i :: 0 <= i < |items| ==> items[i].Obj?) && r.Failure? ==> r.error == TypeError
  {
    if exists i :: 0 <= i < |items| && !items[i].Obj? then Failure(AttributeError)
    else KeysInOrder(items)
  }

  /** The keys event by event; the first event whose key is refused
      decides the error. */
  function KeysInOrder(items: seq<Value>): (r: Result<seq<Keyed>, PyError>)
    ensures r.Success? <==> forall i :: 0 <= i < |items| ==> YearKey(items[i]).Success?
    ensures r.Success? ==> |r.value| == |items|
    ensures r.Success? ==> forall i :: 0 <= i < |items| ==> r.value[i] == (YearKey(items[i]).value, items[i])
    ensures r.Failure? ==> exists j :: 0 <= j < |items| && YearKey(items[j]) == Failure(r.error)
                                      && forall i :: 0 <= i < j ==> YearKey(items[i]).Success?
  {
    if |items| == 0 then Success([])
    else
      var init := items[..|items| - 1];
      assert forall i :: 0 <= i < |init| ==> init[i] == items[i];
      var ks :- KeysInOrder(init);
      var k :- YearKey(items[|items| - 1]);
      Success(ks + [(k, items[|items| - 1])])
  }

  /** A string year followed by an event that is not a dict: Python fails
      while computing the second key, before any comparison, so the error is
      the AttributeError and not the TypeError. */
  lemma NonDictAfterStringYear()
    ensures YearKeys([Obj([("year", Str("2018"))]), Int(5)]) == Failure(AttributeError)
  {
    var items := [Obj([("year", Str("2018"))]), Int(5)];
    assert !items[1].Obj?;
  }

  predicate SortedByKey(s: seq<Keyed>) {
    forall i, j :: 0 <= i < j < |s| ==> s[i].0 <= s[j].0
  }

  /** Puts `x` into sorted `s` after every entry whose key is not larger. */
  function Insert(x: Keyed, s: seq<Keyed>): (r: seq<Keyed>)
    requires SortedByKey(s)
    ensures SortedByKey(r)
    ensures multiset(r) == multiset(s) + multiset{x}
    ensures |r| == |s| + 1
    ensures r[|r| - 1].0 == if |s| == 0 || x.0 > s[|s| - 1].0 then x.0 else s[|s| - 1].0
  {
    if |s| == 0 then [x]
    else if s[|s| - 1].0 <= x.0 then
      SortedSnoc(s, x);
      s + [x]
    else
      var init := s[..|s| - 1];
      var last := s[|s| - 1];
      assert s == init + [last];
      var t := Insert(x, init);
      SortedSnoc(t, last);
      t + [last]
  }

  /** Appending an entry whose key is at least the last key keeps the order. */
  lemma SortedSnoc(s: seq<Keyed>, x: Keyed)
    requires SortedByKey(s)
    requires |s| == 0 || s[|s| - 1].0 <= x.0
    ensures SortedByKey(s + [x])
  {
    assert forall i :: 0 <= i < |s| ==> s[i].0 <= x.0;
  }

  /** A stable sort by key: Python's `sorted(..., key=...)`. */
  function SortByKey(s: seq<Keyed>): (r: seq<Keyed>)
    ensures SortedByKey(r)
    ensures multiset(r) == multiset(s)
    ensures |r| == |s|
  {
    if |s| == 0 then []
    else
      assert s == s[..|s| - 1] + [s[|s| - 1]];
      Insert(s[|s| - 1], SortByKey(s[..|s| - 1]))
  }

  /** The entries of `s` whose key is `y`, in order. */
  function WithKey(s: seq<Keyed>, y: int): seq<Keyed> {
    if |s| == 0 then []
    else WithKey(s[..|s| - 1], y) + (if s[|s| - 1].0 == y then [s[|s| - 1]] else [])
  }

  lemma WithKeyAppend(s: seq<Keyed>, x: Keyed, y: int)
    ensures WithKey(s + [x], y) == WithKey(s, y) + (if x.0 == y then [x] else [])
  {
    assert (s + [x])[..|s|] == s;
  }

  /** Inserting `x` keeps the order among equal keys that appending it
      would give. */
  lemma {:induction false} InsertStable(x: Keyed, s: seq<Keyed>, y: int)
    requires SortedByKey(s)
    ensures WithKey(Insert(x, s), y) == WithKey(s + [x], y)
  {
    if |s| > 0 && s[|s| - 1].0 > x.0 {
      var init := s[..|s| - 1];
      InsertStable(x, init, y);
      InsertStableStep(x, s, y);
    }
  }

  /** One step of `InsertStable`: `x` passes the last entry, whose key
      differs from its own. */
  lemma InsertStableStep(x: Keyed, s: seq<Keyed>, y: int)
    requires SortedByKey(s) && |s| > 0 && s[|s| - 1].0 > x.0
    requires WithKey(Insert(x, s[..|s| - 1]), y) == WithKey(s[..|s| - 1] + [x], y)
    ensures WithKey(Insert(x, s), y) == WithKey(s + [x], y)
  {
    var init := s[..|s| - 1];
    var last := s[|s| - 1];
    assert s == init + [last];
    var X := if x.0 == y then [x] else [];
    var L := if last.0 == y then [last] else [];
    assert X + L == L + X;
    calc {
      WithKey(Insert(x, s), y);
      { InsertPasses(x, s); }
      WithKey(Insert(x, init) + [last], y);
      { WithKeyAppend(Insert(x, init), last, y); }
      WithKey(Insert(x, init), y) + L;
      { WithKeyAppend(init, x, y); }
      WithKey(init, y) + X + L;
      WithKey(init, y) + L + X;
      { WithKeyAppend(init, last, y); }
      WithKey(s, y) + X;
      { WithKeyAppend(s, x, y); }
      WithKey(s + [x], y);
    }
  }

  lemma InsertPasses(x: Keyed, s: seq<Keyed>)
    requires SortedByKey(s) && |s| > 0 && s[|s| - 1].0 > x.0
    ensures Insert(x, s) == Insert(x, s[..|s| - 1]) + [s[|s| - 1]]
  {
  }

  /** The sort is stable: the entries sharing any key keep their order. */
  lemma {:induction false} SortStable(s: seq<Keyed>, y: int)
    ensures WithKey(SortByKey(s), y) == WithKey(s, y)
  {
    if |s| > 0 {
      var init := s[..|s| - 1];
      var last := s[|s| - 1];
      assert s == init + [last];
      SortStable(init, y);
      InsertStable(last, SortByKey(init), y);
      WithKeyAppend(SortByKey(init), last, y);
      WithKeyAppend(init, last, y);
    }
  }

  /** The smallest key, defined directly. */
  function MinKey(s: seq<Keyed>): int
    requires |s| > 0
  {
    if |s| == 1 then s[0].0
    else
      var m := MinKey(s[..|s| - 1]);
      if s[|s| - 1].0 < m then s[|s| - 1].0 else m
  }

  lemma {:induction false} MinKeyIsMin(s: seq<Keyed>)
    requires |s| > 0
    ensures forall i :: 0 <= i < |s| ==> MinKey(s) <= s[i].0
    ensures exists i :: 0 <= i < |s| && MinKey(s) == s[i].0
  {
    if |s| > 1 {
      var init := s[..|s| - 1];
      MinKeyIsMin(init);
      assert forall i :: 0 <= i < |init| ==> init[i] == s[i];
      var j :| 0 <= j < |init| && MinKey(init) == init[j].0;
      if s[|s| - 1].0 < MinKey(init) {
        assert MinKey(s) == s[|s| - 1].0;
      } else {
        assert MinKey(s) == s[j].0;
      }
    } else {
      assert MinKey(s) == s[0].0;
    }
  }

  /** The first entry of the sorted events carries the smallest key. */
  lemma SortFirstIsMin(s: seq<Keyed>)
    requires |s| > 0
    ensures SortByKey(s)[0].0 == MinKey(s)
    ensures SortByKey(s)[0] in s
  {
    var t := SortByKey(s);
    MinKeyIsMin(s);
    assert t[0] in multiset(s);
    var j :| 0 <= j < |s| && MinKey(s) == s[j].0;
    assert s[j] in multiset(t);
    var k :| 0 <= k < |t| && t[k] == s[j];
  }

  /** The timeline of the events `items`: the year of the first event after
      sorting by year (None when there are none) and the number of events
      per year since then (0 when there are none). */
  function Timeline(items: seq<Value>, currentYear: int): (r: Result<seq<Entry>, PyError>)
    ensures r.Success? <==>
      && YearKeys(items).Success?
      && (|items| == 0 || (FirstHasYear(YearKeys(items).value) && MinKey(YearKeys(items).value) != currentYear))
    ensures r.Failure? && YearKeys(items).Success? && FirstHasYear(YearKeys(items).value) ==> r.error == ZeroDivisionError
    ensures |items| == 0 ==> r == Success([("career_start", Null), ("milestone_frequency", Int(0))])
    ensures r.Success? && |items| > 0 ==>
      var y := MinKey(YearKeys(items).value);
      && y != currentYear
      && r.value == TimelineEntries(Int(y), Frequency(|items|, y, currentYear))
    ensures r.Failure? && r.error == ZeroDivisionError ==>
      && |items| > 0 && YearKeys(items).Success? && FirstHasYear(YearKeys(items).value)
      && MinKey(YearKeys(items).value) == currentYear
    ensures r.Failure? ==> r.error in {AttributeError, TypeError, KeyError("year"), ZeroDivisionError}
  {
    var keyed :- YearKeys(items);
    var sorted := SortByKey(keyed);
    if |sorted| == 0 then Success([("career_start", Null), ("milestone_frequency", Int(0))])
    else
      FirstEventYear(items, keyed);
      var start :- Subscript(sorted[0].1, "year");
      var y := sorted[0].0;
      assert start == Int(MinKey(keyed)) && y == MinKey(keyed);
      assert |sorted| == |items|;
      if currentYear - y == 0 then Failure(ZeroDivisionError)
      else Success(TimelineEntries(start, Frequency(|sorted|, y, currentYear)))
  }

  /** The earliest event, the one `events[0]["year"]` reads, has a year. */
  predicate FirstHasYear(keyed: seq<Keyed>) {
    |keyed| > 0 && Subscript(SortByKey(keyed)[0].1, "year").Success?
  }

  /** The timeline result dict. */
  function TimelineEntries(careerStart: Value, frequency: Value): seq<Entry> {
    [("career_start", careerStart), ("milestone_frequency", frequency)]
  }

  /** `len(events) / (year - start)` as a float, for a non-zero divisor. */
  function Frequency(n: nat, start: int, currentYear: int): Value
    requires currentYear != start
  {
    Real(n as real / (currentYear - start) as real)
  }

  /** `_analyze_timelines(data)` over `data.get("life_events", [])`. */
  function AnalyzeTimelines(data: seq<Entry>, currentYear: int): (r: Result<seq<Entry>, PyError>)
    ensures "life_events" !in Keys(data) ==> r == Success([("career_start", Null), ("milestone_frequency", Int(0))])
    ensures var e := Get(data, "life_events", Arr([]));
      Iterate(e).Failure? ==> r == Failure(TypeError)
    ensures var e := Get(data, "life_events", Arr([]));
      Iterate(e).Success? ==> r == Timeline(Iterate(e).value, currentYear)
  {
    var events := Get(data, "life_events", Arr([]));
    var items :- Iterate(events);
    Timeline(items, currentYear)
  }

  /** The first sorted event has the smallest year, and when it has a
      "year" at all, that is the year it was sorted by. */
  lemma FirstEventYear(items: seq<Value>, keyed: seq<Keyed>)
    requires YearKeys(items) == Success(keyed) && |keyed| > 0
    ensures SortByKey(keyed)[0].0 == MinKey(keyed)
    ensures Subscript(SortByKey(keyed)[0].1, "year").Success? ==>
      Subscript(SortByKey(keyed)[0].1, "year").value == Int(SortByKey(keyed)[0].0)
  {
    SortFirstIsMin(keyed);
    var j :| 0 <= j < |keyed| && keyed[j] == SortByKey(keyed)[0];
  }

  /* ---------------------------------------------------------------- */
  /* analyze_creator                                                   */
  /* ---------------------------------------------------------------- */

  const AnalysisKeys: seq<string> := ["basic_stats", "business_analysis", "values_assessment", "timeline_analysis"]

  /** The analysis dict built from the four analyses, computed in this
      order: the first that raises ends `analyze_creator`. */
  function Assemble(basic: Result<seq<Entry>, PyError>, business: Result<seq<Entry>, PyError>,
                    values: Result<seq<Entry>, PyError>, timeline: Result<seq<Entry>, PyError>): (r: Result<seq<Entry>, PyError>)
    ensures r.Success? <==> basic.Success? && business.Success? && values.Success? && timeline.Success?
    ensures r.Failure? ==> r.error == (if basic.Failure? then basic.error else if business.Failure? then business.error
                                       else if values.Failure? then values.error else timeline.error)
    ensures r.Success? ==> Keys(r.value) == AnalysisKeys && DistinctKeys(r.value)
    ensures r.Success? ==>
      && r.value[0].1 == Obj(basic.value) && r.value[1].1 == Obj(business.value)
      && r.value[2].1 == Obj(values.value) && r.value[3].1 == Obj(timeline.value)
  {
    var b :- basic;
    var u :- business;
    var v :- values;
    var t :- timeline;
    Success([("basic_stats", Obj(b)), ("business_analysis", Obj(u)),
             ("values_assessment", Obj(v)), ("timeline_analysis", Obj(t))])
  }

  /** `analyze_creator(data)`. */
  function AnalyzeCreator(data: seq<Entry>, currentYear: int): (r: Result<seq<Entry>, PyError>) {
    Assemble(BasicStats(data), AnalyzeBusiness(data), AssessValues(data), AnalyzeTimelines(data, currentYear))
  }

  /** The report of an analysis has exactly the four analyses as its
      second-level headings, in order. */
  lemma ReportHeadings(a: seq<Entry>)
    requires Keys(a) == AnalysisKeys
    requires forall i :: 0 <= i < |a| ==> a[i].1.Obj?
    ensures Render.HeadingKeysAt(Render.Render(a), 2) == AnalysisKeys
  {
    Render.TopLevelHeadings(a);
    ContainerKeysAll(a);
  }

  /** When every value is a dict or a list, every key gets a heading. */
  lemma {:induction false} ContainerKeysAll(fs: seq<Entry>)
    requires forall i :: 0 <= i < |fs| ==> fs[i].1.Obj? || fs[i].1.Arr?
    ensures Render.ContainerKeys(fs) == Keys(fs)
  {
    if |fs| > 0 {
      ContainerKeysAll(fs[1..]);
      assert Keys(fs) == [fs[0].0] + Keys(fs[1..]);
    }
  }
}

=== FILE: corrected.dfy ===
/** Two places where `_analyze_timelines` and `_analyze_business` (agent.py)
    do not do what they evidently mean to, each shown on the code as
    written and repaired:

    1. The milestone frequency divides by `currentYear - earliest year`
       unguarded, so a record whose earliest event is in the current year
       (which `LifeEventObject` accepts) makes the analysis raise. The
       repair takes the divisor to be at least one year.
    2. The business summary reads `is_active` and `revenue`, keys that a
       dumped `BusinessObject` never has (it has `status` and
       `annual_revenue`), so on every dumped record it reports no active
       business and zero revenue. The repair reads the record's own keys.

    `AnalyzeCreatorFixed` is the analysis with both repairs; it succeeds on
    the dump of every record. */
module Corrected {
  import opened Wrappers
  import opened Json
  import opened Schema
  import opened Dump
  import opened Analysis

  /* ---------------------------------------------------------------- */
  /* Milestone frequency                                               */
  /* ---------------------------------------------------------------- */

  /** The elapsed years, never less than one. */
  function Years(start: int, currentYear: int): (d: int)
    ensures d >= 1
    ensures currentYear - start >= 1 ==> d == currentYear - start
  {
    if currentYear - start >= 1 then currentYear - start else 1
  }

  /** The timeline with the divisor floored at one year. */
  function TimelineFixed(items: seq<Value>, currentYear: int): (r: Result<seq<Entry>, PyError>)
    ensures r.Success? <==> YearKeys(items).Success? && (|items| == 0 || FirstHasYear(YearKeys(items).value))
    ensures r.Failure? ==> r.error != ZeroDivisionError
    ensures |items| == 0 ==> r == Success(TimelineEntries(Null, Int(0)))
    ensures r.Success? && |items| > 0 ==>
      var y := MinKey(YearKeys(items).value);
      r.value == TimelineEntries(Int(y), Real(|items| as real / Years(y, currentYear) as real))
  {
    var keyed :- YearKeys(items);
    var sorted := SortByKey(keyed);
    if |sorted| == 0 then Success(TimelineEntries(Null, Int(0)))
    else
      FirstEventYear(items, keyed);
      var start :- Subscript(sorted[0].1, "year");
      var y := sorted[0].0;
      assert start == Int(MinKey(keyed)) && y == MinKey(keyed);
      assert |sorted| == |items|;
      Success(TimelineEntries(start, Real(|sorted| as real / Years(y, currentYear) as real)))
  }

  /** The frequency of the repaired timeline lies between 0 and the number
      of events. */
  lemma TimelineFixedBounds(items: seq<Value>, currentYear: int)
    requires TimelineFixed(items, currentYear).Success? && |items| > 0
    ensures TimelineFixed(items, currentYear).value[1].1.Real?
    ensures 0.0 < TimelineFixed(items, currentYear).value[1].1.r <= |items| as real
  {
    var y := MinKey(YearKeys(items).value);
    QuotientBounds(|items| as real, Years(y, currentYear) as real);
  }

  lemma QuotientBounds(n: real, d: real)
    requires n > 0.0 && d >= 1.0
    ensures 0.0 < n / d <= n
  {
    var q := n / d;
    assert q * d == n;
    assert q > 0.0;
    assert q * d >= q * 1.0;
  }

  /** The repair changes nothing where the code as written succeeds with
      an earliest year in the past. */
  lemma TimelineFixedAgrees(items: seq<Value>, currentYear: int)
    requires Timeline(items, currentYear).Success?
    requires |items| > 0 ==> MinKey(YearKeys(items).value) < currentYear
    ensures TimelineFixed(items, currentYear) == Timeline(items, currentYear)
  {
    if |items| > 0 {
      var y := MinKey(YearKeys(items).value);
      SameFrequency(|items|, y, currentYear);
      var t := Timeline(items, currentYear);
      var f := TimelineFixed(items, currentYear);
      assert t.value == TimelineEntries(Int(y), Frequency(|items|, y, currentYear));
      assert f.value == TimelineEntries(Int(y), Real(|items| as real / Years(y, currentYear) as real));
    }
  }

  lemma SameFrequency(n: nat, y: int, currentYear: int)
    requires y < currentYear
    ensures Frequency(n, y, currentYear) == Real(n as real / Years(y, currentYear) as real)
  {
  }

  /** Where the code as written divides by zero, the repair reports one
      milestone per event. */
  lemma TimelineFixedBoundary(items: seq<Value>, currentYear: int)
    requires Timeline(items, currentYear) == Failure(ZeroDivisionError)
    ensures TimelineFixed(items, currentYear) == Success(TimelineEntries(Int(currentYear), Real(|items| as real)))
  {
    assert Years(currentYear, currentYear) as real == 1.0;
    DivideByOne(|items| as real, Years(currentYear, currentYear) as real);
  }

  lemma DivideByOne(x: real, d: real)
    requires d == 1.0
    ensures x / d == x
  {
  }

  /** `_analyze_timelines` with the repair. */
  function AnalyzeTimelinesFixed(data: seq<Entry>, currentYear: int): (r: Result<seq<Entry>, PyError>)
    ensures var e := Get(data, "life_events", Arr([]));
      r.Success? <==> Iterate(e).Success? && TimelineFixed(Iterate(e).value, currentYear).Success?
    ensures r.Failure? ==> r.error != ZeroDivisionError
  {
    var events := Get(data, "life_events", Arr([]));
    var items :- Iterate(events);
    TimelineFixed(items, currentYear)
  }

  /** A single event dated this year: the code as written raises, the
      repair reports a frequency of 1. */
  lemma SameYearEvent(currentYear: int)
    ensures Timeline([Obj([("year", Int(currentYear))])], currentYear) == Failure(ZeroDivisionError)
    ensures TimelineFixed([Obj([("year", Int(currentYear))])], currentYear)
         == Success(TimelineEntries(Int(currentYear), Real(1.0)))
  {
    var e := Obj([("year", Int(currentYear))]);
    var keyed := YearKeys([e]).value;
    assert Lookup(e.fields, "year") == Some(Int(currentYear));
    assert keyed == [(currentYear, e)];
    assert SortByKey(keyed) == keyed;
    assert MinKey(keyed) == currentYear;
  }

  /* ---------------------------------------------------------------- */
  /* Business summary                                                  */
  /* ---------------------------------------------------------------- */

  /** `b.get("status", "active") == "active"`, the model's default status. */
  predicate HasActiveStatus(b: Value) {
    b.Obj? && Get(b.fields, "status", Str("active")) == Str("active")
  }

  /** `b.get("annual_revenue")`, where None counts as 0. */
  function AnnualRevenue(b: Value): (r: Result<real, PyError>)
    ensures !b.Obj? ==> r == Failure(AttributeError)
    ensures b.Obj? && Get(b.fields, "annual_revenue", Null) == Null ==> r == Success(0.0)
    ensures b.Obj? && Get(b.fields, "annual_revenue", Null).Real? ==> r == Success(Get(b.fields, "annual_revenue", Null).r)
    ensures r.Failure? ==> r.error == AttributeError || r.error == TypeError
  {
    if !b.Obj? then Failure(AttributeError)
    else
      var v := Get(b.fields, "annual_revenue", Null);
      if v.Null? then Success(0.0) else AsNumber(v)
  }

  /** `_analyze_business` reading the keys a `BusinessObject` has. */
  function AnalyzeBusinessFixed(data: seq<Entry>): (r: Result<seq<Entry>, PyError>)
    ensures "businesses" !in Keys(data) ==>
      r == Success([("total_businesses", Int(0)), ("active_businesses", Int(0)), ("average_revenue", Int(0))])
  {
    AnalyzeBusinessWith(data, HasActiveStatus, AnnualRevenue)
  }

  /** The positions of the businesses whose status is "active". */
  ghost function ActiveStatusSet(bs: seq<BusinessObject>): set<nat> {
    set i: nat | i < |bs| && bs[i].status == "active"
  }

  /** The annual revenues of the records, absent ones counting as 0. */
  function AnnualRevenues(bs: seq<BusinessObject>): (xs: seq<real>)
    ensures |xs| == |bs|
    ensures forall i :: 0 <= i < |bs| ==> xs[i] == if bs[i].annualRevenue.Some? then bs[i].annualRevenue.value else 0.0
  {
    seq(|bs|, i requires 0 <= i < |bs| => if bs[i].annualRevenue.Some? then bs[i].annualRevenue.value else 0.0)
  }

  /** The records' total annual revenue. */
  function RevenueTotal(bs: seq<BusinessObject>): real {
    Total(AnnualRevenues(bs))
  }

  /** What the two summaries read from one dumped business. */
  lemma DumpedBusiness(b: BusinessObject)
    ensures !IsActive(DumpBusiness(b))
    ensures Revenue(DumpBusiness(b)) == Success(0.0)
    ensures HasActiveStatus(DumpBusiness(b)) <==> b.status == "active"
    ensures AnnualRevenue(DumpBusiness(b)) == Success(if b.annualRevenue.Some? then b.annualRevenue.value else 0.0)
  {
    DumpedBusinessFields(b);
  }

  /** The keys a dumped business has, and the two the code as written
      looks for in vain. */
  lemma DumpedBusinessFields(b: BusinessObject)
    ensures Get(DumpBusiness(b).fields, "is_active", Bool(false)) == Bool(false)
    ensures Get(DumpBusiness(b).fields, "revenue", Int(0)) == Int(0)
    ensures Get(DumpBusiness(b).fields, "status", Str("active")) == Str(b.status)
    ensures Get(DumpBusiness(b).fields, "annual_revenue", Null) == OptReal(b.annualRevenue)
  {
    var fs := DumpBusiness(b).fields;
    assert forall i :: 0 <= i < |fs| ==> |fs[i].0| != |"is_active"| && |fs[i].0| != |"revenue"|;
    assert "is_active" !in Keys(fs) && "revenue" !in Keys(fs);
    assert DistinctKeys(fs);
    LookupAt(fs, 3);
    LookupAt(fs, 5);
  }

  lemma DumpListPrefix<T>(xs: seq<T>, dump: T -> Value, n: nat)
    requires n <= |xs|
    ensures DumpList(xs, dump)[..n] == DumpList(xs[..n], dump)
  {
  }

  /** Summed over dumped businesses, `revenue` gives 0 and
      `annual_revenue` gives the records' total. */
  lemma DumpedRevenues(bs: seq<BusinessObject>)
    ensures SumRevenue(DumpList(bs, DumpBusiness), Revenue) == Success(0.0)
    ensures SumRevenue(DumpList(bs, DumpBusiness), AnnualRevenue) == Success(RevenueTotal(bs))
  {
    DumpedRevenueZero(bs);
    DumpedAnnualRevenue(bs);
  }

  lemma DumpedRevenueZero(bs: seq<BusinessObject>)
    ensures SumRevenue(DumpList(bs, DumpBusiness), Revenue) == Success(0.0)
  {
    var items := DumpList(bs, DumpBusiness);
    var zeros := seq(|bs|, i => 0.0);
    forall i | 0 <= i < |bs|
      ensures Revenue(items[i]) == Success(zeros[i])
    {
      DumpedBusiness(bs[i]);
    }
    SumRevenuePointwise(items, Revenue, zeros);
    TotalOfZeros(zeros);
  }

  lemma DumpedAnnualRevenue(bs: seq<BusinessObject>)
    ensures SumRevenue(DumpList(bs, DumpBusiness), AnnualRevenue) == Success(RevenueTotal(bs))
  {
    var items := DumpList(bs, DumpBusiness);
    forall i | 0 <= i < |bs|
      ensures AnnualRevenue(items[i]) == Success(AnnualRevenues(bs)[i])
    {
      DumpedBusiness(bs[i]);
    }
    SumRevenuePointwise(items, AnnualRevenue, AnnualRevenues(bs));
  }

  /** Over dumped businesses, `is_active` marks none and the status marks
      exactly the active records. */
  lemma DumpedActive(bs: seq<BusinessObject>)
    ensures ActiveSet(DumpList(bs, DumpBusiness), IsActive) == {}
    ensures ActiveSet(DumpList(bs, DumpBusiness), HasActiveStatus) == ActiveStatusSet(bs)
  {
    var items := DumpList(bs, DumpBusiness);
    forall i | 0 <= i < |bs|
      ensures !IsActive(items[i])
      ensures HasActiveStatus(items[i]) <==> bs[i].status == "active"
    {
      DumpedBusiness(bs[i]);
    }
  }

  /** The businesses of a dumped record, as `_analyze_business` sees them. */
  lemma DumpedBusinessList(c: ContentCreatorInfo)
    ensures Get(DumpCreator(c), "businesses", Arr([])) == Arr(DumpList(c.businesses, DumpBusiness))
    ensures forall i :: 0 <= i < |c.businesses| ==> DumpList(c.businesses, DumpBusiness)[i].Obj?
  {
    DumpCreatorLookups(c);
  }

  /** As written, the summary of every dumped record counts no active
      business and averages a revenue of 0, whatever the records say. */
  lemma BusinessSummaryIgnoresRecords(c: ContentCreatorInfo)
    ensures AnalyzeBusiness(DumpCreator(c)).Success?
    ensures AnalyzeBusiness(DumpCreator(c)).value[1].1 == Int(0)
    ensures |c.businesses| > 0 ==> AnalyzeBusiness(DumpCreator(c)).value[2].1 == Real(0.0)
  {
    DumpedBusinessList(c);
    DumpedRevenues(c.businesses);
    DumpedActive(c.businesses);
    if |c.businesses| > 0 {
      ZeroDivided(|c.businesses| as real);
    }
  }

  lemma ZeroDivided(n: real)
    requires n > 0.0
    ensures 0.0 / n == 0.0
  {
  }

  /** A record with one active business earning 1000: as written the
      summary reports no active business and no revenue; repaired, it
      reports one active business averaging 1000. */
  lemma ActiveBusinessOverlooked(c: ContentCreatorInfo)
    requires |c.businesses| == 1
    requires c.businesses[0].status == "active" && c.businesses[0].annualRevenue == Some(1000.0)
    ensures AnalyzeBusiness(DumpCreator(c)).Success? && AnalyzeBusinessFixed(DumpCreator(c)).Success?
    ensures AnalyzeBusiness(DumpCreator(c)).value[1].1 == Int(0)
    ensures AnalyzeBusiness(DumpCreator(c)).value[2].1 == Real(0.0)
    ensures AnalyzeBusinessFixed(DumpCreator(c)).value[1].1 == Int(1)
    ensures AnalyzeBusinessFixed(DumpCreator(c)).value[2].1 == Real(1000.0)
  {
    BusinessSummaryIgnoresRecords(c);
    BusinessSummaryReadsRecords(c);
    assert ActiveStatusSet(c.businesses) == {0};
    assert RevenueTotal(c.businesses) == 1000.0 by {
      assert AnnualRevenues(c.businesses) == [1000.0];
      assert [1000.0][..0] == [];
    }
    DivideByOne(1000.0, |c.businesses| as real);
  }

  /** Repaired, the summary of every dumped record counts the businesses
      whose status is "active" and averages their annual revenues. */
  lemma BusinessSummaryReadsRecords(c: ContentCreatorInfo)
    ensures AnalyzeBusinessFixed(DumpCreator(c)).Success?
    ensures AnalyzeBusinessFixed(DumpCreator(c)).value[0].1 == Int(|c.businesses|)
    ensures AnalyzeBusinessFixed(DumpCreator(c)).value[1].1 == Int(|ActiveStatusSet(c.businesses)|)
    ensures |c.businesses| > 0 ==>
      AnalyzeBusinessFixed(DumpCreator(c)).value[2].1 == Real(RevenueTotal(c.businesses) / |c.businesses| as real)
  {
    DumpedBusinessList(c);
    DumpedRevenues(c.businesses);
    DumpedActive(c.businesses);
  }

  /* ---------------------------------------------------------------- */
  /* The repaired analysis                                             */
  /* ---------------------------------------------------------------- */

  /** `analyze_creator` with both repairs. */
  function AnalyzeCreatorFixed(data: seq<Entry>, currentYear: int): (r: Result<seq<Entry>, PyError>)
    ensures r.Failure? ==> r.error != ZeroDivisionError
  {
    Assemble(BasicStats(data), AnalyzeBusinessFixed(data), AssessValues(data), AnalyzeTimelinesFixed(data, currentYear))
  }

  /** The life events of a dumped record, as `_analyze_timelines` sees them. */
  lemma {:induction false} DumpedYearKeys(es: seq<LifeEventObject>)
    ensures YearKeys(DumpList(es, DumpLifeEvent)).Success?
    ensures forall i :: 0 <= i < |es| ==> YearKeys(DumpList(es, DumpLifeEvent)).value[i].0 == es[i].year
    ensures forall k :: k in YearKeys(DumpList(es, DumpLifeEvent)).value ==> Subscript(k.1, "year").Success?
  {
    var items := DumpList(es, DumpLifeEvent);
    forall i | 0 <= i < |es|
      ensures YearKey(items[i]) == Success(es[i].year)
      ensures Subscript(items[i], "year").Success?
    {
      DumpedLifeEvent(es[i]);
    }
  }

  lemma DumpedLifeEvent(e: LifeEventObject)
    ensures YearKey(DumpLifeEvent(e)) == Success(e.year)
    ensures Subscript(DumpLifeEvent(e), "year").Success?
  {
    var fs := DumpLifeEvent(e).fields;
    assert DistinctKeys(fs);
    LookupAt(fs, 1);
  }

  /** The timeline of every dumped record is defined once repaired. */
  lemma DumpedTimeline(c: ContentCreatorInfo, currentYear: int)
    ensures AnalyzeTimelinesFixed(DumpCreator(c), currentYear).Success?
  {
    DumpCreatorLookups(c);
    DumpedEvents(c.lifeEvents, currentYear);
  }

  lemma DumpedEvents(es: seq<LifeEventObject>, currentYear: int)
    ensures TimelineFixed(DumpList(es, DumpLifeEvent), currentYear).Success?
  {
    var items := DumpList(es, DumpLifeEvent);
    DumpedYearKeys(es);
    if |items| > 0 {
      SortFirstIsMin(YearKeys(items).value);
      assert FirstHasYear(YearKeys(items).value);
    }
  }

  /** The values of every dumped record have names. */
  lemma DumpedNames(vs: seq<ValueObject>)
    ensures Names(DumpList(vs, DumpValueObject)).Success?
  {
    var items := DumpList(vs, DumpValueObject);
    forall i | 0 <= i < |vs|
      ensures Subscript(items[i], "name").Success?
    {
      var fs := DumpValueObject(vs[i]).fields;
      assert DistinctKeys(fs);
      LookupAt(fs, 0);
    }
  }

  /** The repaired analysis succeeds on the dump of every record. */
  lemma AnalyzeCreatorFixedTotal(c: ContentCreatorInfo, currentYear: int)
    ensures AnalyzeCreatorFixed(DumpCreator(c), currentYear).Success?
  {
    DumpedBasicStats(c);
    BusinessSummaryReadsRecords(c);
    DumpedValues(c);
    DumpedTimeline(c, currentYear);
  }

  /** As written, the analysis raises on a valid record whose life events
      all happened this year. */
  lemma ValidRecordRaises(c: ContentCreatorInfo, currentYear: int)
    requires ValidCreator(c, currentYear)
    requires |c.lifeEvents| > 0 && forall i :: 0 <= i < |c.lifeEvents| ==> c.lifeEvents[i].year == currentYear
    ensures AnalyzeCreator(DumpCreator(c), currentYear) == Failure(ZeroDivisionError)
  {
    var d := DumpCreator(c);
    DumpedBasicStats(c);
    BusinessSummaryIgnoresRecords(c);
    DumpedValues(c);
    DumpedTimelineRaises(c, currentYear);
    assert AnalyzeCreator(d, currentYear) ==
      Assemble(BasicStats(d), AnalyzeBusiness(d), AssessValues(d), AnalyzeTimelines(d, currentYear));
  }

  lemma DumpedBasicStats(c: ContentCreatorInfo)
    ensures BasicStats(DumpCreator(c)).Success?
  {
    var d := DumpCreator(c);
    DumpCreatorLookups(c);
    assert CountOf(d, "life_events").Success?;
    assert CountOf(d, "challenges").Success?;
    assert CountOf(d, "achievements").Success?;
    assert CountOf(d, "businesses").Success?;
  }

  lemma DumpedValues(c: ContentCreatorInfo)
    ensures AssessValues(DumpCreator(c)).Success?
  {
    DumpCreatorLookups(c);
    DumpedNames(c.values);
  }

  lemma DumpedTimelineRaises(c: ContentCreatorInfo, currentYear: int)
    requires |c.lifeEvents| > 0 && forall i :: 0 <= i < |c.lifeEvents| ==> c.lifeEvents[i].year == currentYear
    ensures AnalyzeTimelines(DumpCreator(c), currentYear) == Failure(ZeroDivisionError)
  {
    DumpCreatorLookups(c);
    DumpedEventsRaise(c.lifeEvents, currentYear);
  }

  /** Dumped events all dated this year make the timeline as written
      divide by zero. */
  lemma DumpedEventsRaise(es: seq<LifeEventObject>, currentYear: int)
    requires |es| > 0 && forall i :: 0 <= i < |es| ==> es[i].year == currentYear
    ensures Timeline(DumpList(es, DumpLifeEvent), currentYear) == Failure(ZeroDivisionError)
  {
    var items := DumpList(es, DumpLifeEvent);
    DumpedYearKeys(es);
    var keyed := YearKeys(items).value;
    SortFirstIsMin(keyed);
    MinKeyIsMin(keyed);
    assert FirstHasYear(keyed);
  }
}

=== FILE: dump.dfy ===
/** `.dict()` on the models of models.py, which is what `ensure_dict` hands
    to the analysis, and the reload `Model(**d)` that reads such a dict back.
    A dump lists the fields in declaration order under their Python names;
    `None` becomes `Null`. */
module Dump {
  import opened Wrappers
  import opened Json
  import opened Schema

  function OptStr(o: Option<string>): Value {
    if o.Some? then Str(o.value) else Null
  }

  function OptInt(o: Option<int>): Value {
    if o.Some? then Int(o.value) else Null
  }

  function OptReal(o: Option<real>): Value {
    if o.Some? then Real(o.value) else Null
  }

  function DumpValueObject(v: ValueObject): Value {
    Obj([("name", Str(v.name)), ("origin", Str(v.origin)), ("impact_today", Str(v.impactToday)),
         ("description", OptStr(v.description))])
  }

  function DumpChallenge(c: ChallengeObject): Value {
    Obj([("description", Str(c.description)), ("year", Int(c.year)), ("learnings", Str(c.learnings)),
         ("duration", OptInt(c.duration))])
  }

  function DumpMetrics(ms: Metrics): (fs: seq<Entry>)
    ensures |fs| == |ms|
    ensures forall i :: 0 <= i < |ms| ==> fs[i] == (ms[i].0, Real(ms[i].1))
  {
    seq(|ms|, i requires 0 <= i < |ms| => (ms[i].0, Real(ms[i].1)))
  }

  function DumpAchievement(a: AchievementObject): Value {
    Obj([("description", Str(a.description)), ("year", Int(a.year)), ("impact", Str(a.impact)),
         ("metrics", Obj(DumpMetrics(a.metrics)))])
  }

  function DumpLifeEvent(e: LifeEventObject): Value {
    Obj([("name", Str(e.name)), ("year", Int(e.year)), ("description", Str(e.description)),
         ("impact", Str(e.impact)), ("category", OptStr(e.category))])
  }

  function DumpBusiness(b: BusinessObject): Value {
    Obj([("name", Str(b.name)), ("description", Str(b.description)), ("year_started", Int(b.yearStarted)),
         ("annual_revenue", OptReal(b.annualRevenue)), ("business_type", Str(b.businessType)),
         ("status", Str(b.status))])
  }

  function DumpPersonal(p: PersonalInfo): Value {
    Obj([("full_name", Str(p.fullName)), ("channel_name", Str(p.channelName)), ("channel_url", Str(p.channelUrl)),
         ("niche", Str(p.niche)), ("start_year", Int(p.startYear)), ("country", OptStr(p.country)),
         ("team_size", Int(p.teamSize))])
  }

  function DumpList<T>(xs: seq<T>, dump: T -> Value): (vs: seq<Value>)
    ensures |vs| == |xs|
    ensures forall i :: 0 <= i < |xs| ==> vs[i] == dump(xs[i])
  {
    seq(|xs|, i requires 0 <= i < |xs| => dump(xs[i]))
  }

  /** `creator.dict()`. */
  function DumpCreator(c: ContentCreatorInfo): seq<Entry> {
    [ ("personal_info", DumpPersonal(c.personalInfo)),
      ("values", Arr(DumpList(c.values, DumpValueObject))),
      ("challenges", Arr(DumpList(c.challenges, DumpChallenge))),
      ("achievements", Arr(DumpList(c.achievements, DumpAchievement))),
      ("life_events", Arr(DumpList(c.lifeEvents, DumpLifeEvent))),
      ("businesses", Arr(DumpList(c.businesses, DumpBusiness))),
      ("analysis_metadata", Obj(c.analysisMetadata)) ]
  }

  /* ---------------------------------------------------------------- */
  /* Reading a dict back.                                              */
  /* ---------------------------------------------------------------- */

  function StrAt(fs: seq<Entry>, k: string): (r: Option<string>)
    ensures r.Some? <==> Lookup(fs, k).Some? && Lookup(fs, k).value.Str?
    ensures r.Some? ==> Lookup(fs, k) == Some(Str(r.value))
  {
    match Lookup(fs, k)
    case Some(Str(s)) => Some(s)
    case _ => None
  }

  function IntAt(fs: seq<Entry>, k: string): (r: Option<int>)
    ensures r.Some? ==> Lookup(fs, k) == Some(Int(r.value))
  {
    match Lookup(fs, k)
    case Some(Int(i)) => Some(i)
    case _ => None
  }

  /** A field with a declared default, used when the key is missing. */
  function StrOr(fs: seq<Entry>, k: string, default: string): Option<string> {
    match Lookup(fs, k)
    case None => Some(default)
    case Some(Str(s)) => Some(s)
    case _ => None
  }

  function IntOr(fs: seq<Entry>, k: string, default: int): Option<int> {
    match Lookup(fs, k)
    case None => Some(default)
    case Some(Int(i)) => Some(i)
    case _ => None
  }

  /** An optional field: missing or `None` reads as absent. */
  function OptStrAt(fs: seq<Entry>, k: string): Option<Option<string>> {
    match Lookup(fs, k)
    case None => Some(None)
    case Some(Null) => Some(None)
    case Some(Str(s)) => Some(Some(s))
    case _ => None
  }

  function OptIntAt(fs: seq<Entry>, k: string): Option<Option<int>> {
    match Lookup(fs, k)
    case None => Some(None)
    case Some(Null) => Some(None)
    case Some(Int(i)) => Some(Some(i))
    case _ => None
  }

  function OptRealAt(fs: seq<Entry>, k: string): Option<Option<real>> {
    match Lookup(fs, k)
    case None => Some(None)
    case Some(Null) => Some(None)
    case Some(Real(x)) => Some(Some(x))
    case _ => None
  }

  function LoadValueObject(x: Value): Option<ValueObject> {
    if !x.Obj? then None
    else
      var name :- StrAt(x.fields, "name");
      var origin :- StrOr(x.fields, "origin", "Personal belief");
      var impact :- StrAt(x.fields, "impact_today");
      var description :- OptStrAt(x.fields, "description");
      Some(ValueObject(name, origin, impact, description))
  }

  function LoadChallenge(x: Value): Option<ChallengeObject> {
    if !x.Obj? then None
    else
      var description :- StrAt(x.fields, "description");
      var year :- IntAt(x.fields, "year");
      var learnings :- StrAt(x.fields, "learnings");
      var duration :- OptIntAt(x.fields, "duration");
      Some(ChallengeObject(description, year, learnings, duration))
  }

  /** A metrics dict: every value a float. */
  function LoadMetrics(x: Value): (r: Option<Metrics>)
    ensures r.Some? ==> x.Obj? && |r.value| == |x.fields|
  {
    if x.Obj? && DistinctKeys(x.fields) && forall i :: 0 <= i < |x.fields| ==> x.fields[i].1.Real? then
      var ms := seq(|x.fields|, i requires 0 <= i < |x.fields| => (x.fields[i].0, x.fields[i].1.r));
      assert DistinctMetricNames(ms);
      Some(ms)
    else None
  }

  function LoadAchievement(x: Value): Option<AchievementObject> {
    if !x.Obj? then None
    else
      var description :- StrAt(x.fields, "description");
      var year :- IntAt(x.fields, "year");
      var impact :- StrAt(x.fields, "impact");
      var metrics :- match Lookup(x.fields, "metrics")
                     case None => Some([])
                     case Some(m) => LoadMetrics(m);
      Some(AchievementObject(description, year, impact, metrics))
  }

  function LoadLifeEvent(x: Value): Option<LifeEventObject> {
    if !x.Obj? then None
    else
      var name :- StrAt(x.fields, "name");
      var year :- IntAt(x.fields, "year");
      var description :- StrAt(x.fields, "description");
      var impact :- StrAt(x.fields, "impact");
      var category :- OptStrAt(x.fields, "category");
      Some(LifeEventObject(name, year, description, impact, category))
  }

  function LoadBusiness(x: Value): Option<BusinessObject> {
    if !x.Obj? then None
    else
      var name :- StrAt(x.fields, "name");
      var description :- StrAt(x.fields, "description");
      var year :- IntAt(x.fields, "year_started");
      var revenue :- OptRealAt(x.fields, "annual_revenue");
      var kind :- StrAt(x.fields, "business_type");
      var status :- StrOr(x.fields, "status", "active");
      Some(BusinessObject(name, description, year, revenue, kind, status))
  }

  function LoadPersonal(x: Value): Option<PersonalInfo> {
    if !x.Obj? then None
    else
      var fullName :- StrAt(x.fields, "full_name");
      var channelName :- StrAt(x.fields, "channel_name");
      var channelUrl :- StrAt(x.fields, "channel_url");
      var niche :- StrAt(x.fields, "niche");
      var startYear :- IntAt(x.fields, "start_year");
      var country :- OptStrAt(x.fields, "country");
      var teamSize :- IntOr(x.fields, "team_size", 1);
      Some(PersonalInfo(fullName, channelName, channelUrl, niche, startYear, country, teamSize))
  }

  /** Every element of a list read back, or nothing when one cannot be. */
  function LoadList<T>(items: seq<Value>, load: Value -> Option<T>): (r: Option<seq<T>>)
    ensures r.Some? <==> forall i :: 0 <= i < |items| ==> load(items[i]).Some?
    ensures r.Some? ==> |r.value| == |items| && forall i :: 0 <= i < |items| ==> load(items[i]) == Some(r.value[i])
  {
    if items == [] then Some([])
    else
      match load(items[0])
      case None => None
      case Some(x) =>
        match LoadList(items[1..], load)
        case None =>
          assert forall i :: 1 <= i < |items| ==> items[i] == items[1..][i - 1];
          None
        case Some(xs) =>
          assert forall i :: 1 <= i < |items| ==> items[i] == items[1..][i - 1];
          Some([x] + xs)
  }

  /** A list field: missing reads as the empty default. */
  function ListAt<T>(fs: seq<Entry>, k: string, load: Value -> Option<T>): Option<seq<T>> {
    match Lookup(fs, k)
    case None => Some([])
    case Some(Arr(items)) => LoadList(items, load)
    case _ => None
  }

  /** `analysis_metadata`: any dict, or the default stamped with `now` when
      the key is missing. */
  function MetadataAt(fs: seq<Entry>, now: string): Option<Dict> {
    match Lookup(fs, "analysis_metadata")
    case None => Some(DefaultMetadata(now))
    case Some(m) => if m.Obj? && WellFormed(m) then Some(m.fields) else None
  }

  /** `ContentCreatorInfo(**d)`, before validation. */
  function LoadCreator(fs: seq<Entry>, now: string): Option<ContentCreatorInfo> {
    var p :- Lookup(fs, "personal_info");
    var personal :- LoadPersonal(p);
    var values :- ListAt(fs, "values", LoadValueObject);
    var challenges :- ListAt(fs, "challenges", LoadChallenge);
    var achievements :- ListAt(fs, "achievements", LoadAchievement);
    var lifeEvents :- ListAt(fs, "life_events", LoadLifeEvent);
    var businesses :- ListAt(fs, "businesses", LoadBusiness);
    var metadata :- MetadataAt(fs, now);
    Some(ContentCreatorInfo(personal, values, challenges, achievements, lifeEvents, businesses, metadata))
  }

  /* ---------------------------------------------------------------- */
  /* Reading a dump back gives the model that was dumped.              */
  /* ---------------------------------------------------------------- */

  /** Each reader gives back what the matching writer stored. */
  lemma ReadStr(fs: seq<Entry>, k: string, s: string)
    requires Lookup(fs, k) == Some(Str(s))
    ensures StrAt(fs, k) == Some(s) && StrOr(fs, k, "Personal belief") == Some(s) && StrOr(fs, k, "active") == Some(s)
  {
  }

  lemma ReadInt(fs: seq<Entry>, k: string, i: int)
    requires Lookup(fs, k) == Some(Int(i))
    ensures IntAt(fs, k) == Some(i) && IntOr(fs, k, 1) == Some(i)
  {
  }

  lemma ReadOptStr(fs: seq<Entry>, k: string, o: Option<string>)
    requires Lookup(fs, k) == Some(OptStr(o))
    ensures OptStrAt(fs, k) == Some(o)
  {
  }

  lemma ReadOptInt(fs: seq<Entry>, k: string, o: Option<int>)
    requires Lookup(fs, k) == Some(OptInt(o))
    ensures OptIntAt(fs, k) == Some(o)
  {
  }

  lemma ReadList<T>(fs: seq<Entry>, k: string, items: seq<Value>, load: Value -> Option<T>, xs: seq<T>)
    requires Lookup(fs, k) == Some(Arr(items)) && LoadList(items, load) == Some(xs)
    ensures ListAt(fs, k, load) == Some(xs)
  {
  }

  lemma ReadOptReal(fs: seq<Entry>, k: string, o: Option<real>)
    requires Lookup(fs, k) == Some(OptReal(o))
    ensures OptRealAt(fs, k) == Some(o)
  {
  }

  lemma LoadDumpValueObject(v: ValueObject)
    ensures LoadValueObject(DumpValueObject(v)) == Some(v)
  {
    var fs := DumpValueObject(v).fields;
    assert DistinctKeys(fs);
    LookupAt(fs, 0); LookupAt(fs, 1); LookupAt(fs, 2); LookupAt(fs, 3);
    ReadStr(fs, "name", v.name);
    ReadStr(fs, "origin", v.origin);
    ReadStr(fs, "impact_today", v.impactToday);
    ReadOptStr(fs, "description", v.description);
  }

  lemma LoadDumpChallenge(c: ChallengeObject)
    ensures LoadChallenge(DumpChallenge(c)) == Some(c)
  {
    var fs := DumpChallenge(c).fields;
    assert DistinctKeys(fs);
    LookupAt(fs, 0); LookupAt(fs, 1); LookupAt(fs, 2); LookupAt(fs, 3);
    ReadStr(fs, "description", c.description);
    ReadInt(fs, "year", c.year);
    ReadStr(fs, "learnings", c.learnings);
    ReadOptInt(fs, "duration", c.duration);
  }

  lemma LoadDumpMetrics(ms: Metrics)
    ensures LoadMetrics(Obj(DumpMetrics(ms))) == Some(ms)
  {
    var fs := DumpMetrics(ms);
    assert DistinctKeys(fs);
    assert forall i :: 0 <= i < |fs| ==> fs[i].1.Real?;
    var back := seq(|fs|, i requires 0 <= i < |fs| => (fs[i].0, fs[i].1.r));
    assert back == ms;
  }

  lemma LoadDumpAchievement(a: AchievementObject)
    ensures LoadAchievement(DumpAchievement(a)) == Some(a)
  {
    var fs := DumpAchievement(a).fields;
    assert DistinctKeys(fs);
    LookupAt(fs, 0); LookupAt(fs, 1); LookupAt(fs, 2); LookupAt(fs, 3);
    LoadDumpMetrics(a.metrics);
    ReadStr(fs, "description", a.description);
    ReadInt(fs, "year", a.year);
    ReadStr(fs, "impact", a.impact);
    assert Lookup(fs, "metrics") == Some(Obj(DumpMetrics(a.metrics)));
  }

  lemma LoadDumpLifeEvent(e: LifeEventObject)
    ensures LoadLifeEvent(DumpLifeEvent(e)) == Some(e)
  {
    var fs := DumpLifeEvent(e).fields;
    assert DistinctKeys(fs);
    LookupAt(fs, 0); LookupAt(fs, 1); LookupAt(fs, 2); LookupAt(fs, 3); LookupAt(fs, 4);
    ReadStr(fs, "name", e.name);
    ReadInt(fs, "year", e.year);
    ReadStr(fs, "description", e.description);
    ReadStr(fs, "impact", e.impact);
    ReadOptStr(fs, "category", e.category);
  }

  lemma LoadDumpBusiness(b: BusinessObject)
    ensures LoadBusiness(DumpBusiness(b)) == Some(b)
  {
    var fs := DumpBusiness(b).fields;
    assert DistinctKeys(fs);
    LookupAt(fs, 0); LookupAt(fs, 1); LookupAt(fs, 2); LookupAt(fs, 3); LookupAt(fs, 4); LookupAt(fs, 5);
    ReadStr(fs, "name", b.name);
    ReadStr(fs, "description", b.description);
    ReadInt(fs, "year_started", b.yearStarted);
    ReadOptReal(fs, "annual_revenue", b.annualRevenue);
    ReadStr(fs, "business_type", b.businessType);
    ReadStr(fs, "status", b.status);
  }

  lemma LoadDumpPersonal(p: PersonalInfo)
    ensures LoadPersonal(DumpPersonal(p)) == Some(p)
  {
    var fs := DumpPersonal(p).fields;
    assert DistinctKeys(fs);
    LookupAt(fs, 0); LookupAt(fs, 1); LookupAt(fs, 2); LookupAt(fs, 3); LookupAt(fs, 4); LookupAt(fs, 5); LookupAt(fs, 6);
    ReadStr(fs, "full_name", p.fullName);
    ReadStr(fs, "channel_name", p.channelName);
    ReadStr(fs, "channel_url", p.channelUrl);
    ReadStr(fs, "niche", p.niche);
    ReadInt(fs, "start_year", p.startYear);
    ReadOptStr(fs, "country", p.country);
    ReadInt(fs, "team_size", p.teamSize);
  }

  lemma LoadDumpList<T>(xs: seq<T>, dump: T -> Value, load: Value -> Option<T>)
    requires forall x :: load(dump(x)) == Some(x)
    ensures LoadList(DumpList(xs, dump), load) == Some(xs)
  {
    var items := DumpList(xs, dump);
    assert forall i :: 0 <= i < |items| ==> load(items[i]) == Some(xs[i]);
    var r := LoadList(items, load);
    assert r.Some?;
    assert forall i :: 0 <= i < |xs| ==> r.value[i] == xs[i];
    assert r.value == xs;
  }

  lemma LoadDumpValues(xs: seq<ValueObject>)
    ensures LoadList(DumpList(xs, DumpValueObject), LoadValueObject) == Some(xs)
  {
    forall x ensures LoadValueObject(DumpValueObject(x)) == Some(x) {
      LoadDumpValueObject(x);
    }
    LoadDumpList(xs, DumpValueObject, LoadValueObject);
  }

  lemma LoadDumpChallenges(xs: seq<ChallengeObject>)
    ensures LoadList(DumpList(xs, DumpChallenge), LoadChallenge) == Some(xs)
  {
    forall x ensures LoadChallenge(DumpChallenge(x)) == Some(x) {
      LoadDumpChallenge(x);
    }
    LoadDumpList(xs, DumpChallenge, LoadChallenge);
  }

  lemma LoadDumpAchievements(xs: seq<AchievementObject>)
    ensures LoadList(DumpList(xs, DumpAchievement), LoadAchievement) == Some(xs)
  {
    forall x ensures LoadAchievement(DumpAchievement(x)) == Some(x) {
      LoadDumpAchievement(x);
    }
    LoadDumpList(xs, DumpAchievement, LoadAchievement);
  }

  lemma LoadDumpLifeEvents(xs: seq<LifeEventObject>)
    ensures LoadList(DumpList(xs, DumpLifeEvent), LoadLifeEvent) == Some(xs)
  {
    forall x ensures LoadLifeEvent(DumpLifeEvent(x)) == Some(x) {
      LoadDumpLifeEvent(x);
    }
    LoadDumpList(xs, DumpLifeEvent, LoadLifeEvent);
  }

  lemma LoadDumpBusinesses(xs: seq<BusinessObject>)
    ensures LoadList(DumpList(xs, DumpBusiness), LoadBusiness) == Some(xs)
  {
    forall x ensures LoadBusiness(DumpBusiness(x)) == Some(x) {
      LoadDumpBusiness(x);
    }
    LoadDumpList(xs, DumpBusiness, LoadBusiness);
  }

  /** Where each field of a creator sits in its dump. */
  lemma DumpCreatorLookups(c: ContentCreatorInfo)
    ensures Lookup(DumpCreator(c), "personal_info") == Some(DumpPersonal(c.personalInfo))
    ensures Lookup(DumpCreator(c), "values") == Some(Arr(DumpList(c.values, DumpValueObject)))
    ensures Lookup(DumpCreator(c), "challenges") == Some(Arr(DumpList(c.challenges, DumpChallenge)))
    ensures Lookup(DumpCreator(c), "achievements") == Some(Arr(DumpList(c.achievements, DumpAchievement)))
    ensures Lookup(DumpCreator(c), "life_events") == Some(Arr(DumpList(c.lifeEvents, DumpLifeEvent)))
    ensures Lookup(DumpCreator(c), "businesses") == Some(Arr(DumpList(c.businesses, DumpBusiness)))
    ensures Lookup(DumpCreator(c), "analysis_metadata") == Some(Obj(c.analysisMetadata))
  {
    var fs := DumpCreator(c);
    assert DistinctKeys(fs);
    LookupAt(fs, 0); LookupAt(fs, 1); LookupAt(fs, 2); LookupAt(fs, 3); LookupAt(fs, 4); LookupAt(fs, 5); LookupAt(fs, 6);
  }

  /** `ContentCreatorInfo(**creator.dict())` rebuilds the creator. */
  lemma LoadDumpCreator(c: ContentCreatorInfo, now: string)
    ensures LoadCreator(DumpCreator(c), now) == Some(c)
  {
    var fs := DumpCreator(c);
    DumpCreatorLookups(c);
    LoadDumpPersonal(c.personalInfo);
    LoadDumpValues(c.values);
    ReadList(fs, "values", DumpList(c.values, DumpValueObject), LoadValueObject, c.values);
    LoadDumpChallenges(c.challenges);
    ReadList(fs, "challenges", DumpList(c.challenges, DumpChallenge), LoadChallenge, c.challenges);
    LoadDumpAchievements(c.achievements);
    ReadList(fs, "achievements", DumpList(c.achievements, DumpAchievement), LoadAchievement, c.achievements);
    LoadDumpLifeEvents(c.lifeEvents);
    ReadList(fs, "life_events", DumpList(c.lifeEvents, DumpLifeEvent), LoadLifeEvent, c.lifeEvents);
    LoadDumpBusinesses(c.businesses);
    ReadList(fs, "businesses", DumpList(c.businesses, DumpBusiness), LoadBusiness, c.businesses);
    assert MetadataAt(fs, now) == Some(c.analysisMetadata);
  }
}

=== FILE: helpers.dfy ===
/** The small pure helpers of utils.py — `calculate_career_duration` and
    `validate_youtube_url` — and the `channel_url` pattern of `PersonalInfo`
    (models.py), written as hand-coded recognisers with a declarative
    reference for each. */
module Helpers {

  /** `calculate_career_duration(start_year)`, `max(current_year - start_year, 0)`,
      with the clock's year as a parameter. */
  function CareerDuration(startYear: int, currentYear: int): (years: nat)
    ensures startYear <= currentYear ==> years == currentYear - startYear
    ensures startYear >= currentYear ==> years == 0
  {
    if currentYear - startYear > 0 then currentYear - startYear else 0
  }

  /** A later clock never shortens a career, and neither does an earlier start. */
  lemma CareerDurationMonotone(startYear: int, start2: int, currentYear: int, current2: int)
    requires start2 <= startYear && currentYear <= current2
    ensures CareerDuration(startYear, currentYear) <= CareerDuration(start2, current2)
  {
  }

  /** `p` is a prefix of `s`, character by character. */
  predicate StartsWith(s: string, p: string) {
    |p| <= |s| && forall i :: 0 <= i < |p| ==> s[i] == p[i]
  }

  /** `[\w-]` on ASCII: letters, digits, underscore and hyphen. */
  predicate IsWordChar(c: char) {
    ('a' <= c <= 'z') || ('A' <= c <= 'Z') || ('0' <= c <= '9') || c == '_' || c == '-'
  }

  /** `.` of the pattern engine: any character but a newline. */
  predicate IsAnyChar(c: char) {
    c != '\n'
  }

  /** At least one character satisfying `ok` comes next (`[\w-]+` or `.+`
      matched without an end anchor). */
  predicate NextIs(s: string, ok: char -> bool) {
    |s| > 0 && ok(s[0])
  }

  const Schemes: set<string> := {"", "http://", "https://"}
  const Wwws: set<string> := {"", "www."}
  const VideoPaths: set<string> := {"youtube.com/channel/", "youtube.com/@", "youtube.com/user/", "youtu.be/"}
  const ChannelHosts: set<string> := {"youtube.com/", "youtu.be/", "youtube/"}

  /** The optional `(https?://)?` group, as the recogniser consumes it. */
  function Scheme(url: string): (s: string)
    ensures s in Schemes && StartsWith(url, s)
  {
    if StartsWith(url, "https://") then "https://"
    else if StartsWith(url, "http://") then "http://"
    else ""
  }

  /** The optional `(www\.)?` group. */
  function Www(s: string): (w: string)
    ensures w in Wwws && StartsWith(s, w)
  {
    if StartsWith(s, "www.") then "www." else ""
  }

  /** What is left once the scheme and `www.` are consumed. */
  function Host(url: string): string {
    var a := url[|Scheme(url)|..];
    a[|Www(a)|..]
  }

  /** What follows `youtube.com/` in the first pattern. */
  predicate ChannelPath(p: string) {
    || (StartsWith(p, "channel/") && NextIs(p[8..], IsWordChar))
    || (StartsWith(p, "@") && NextIs(p[1..], IsWordChar))
    || (StartsWith(p, "user/") && NextIs(p[5..], IsWordChar))
  }

  /** The host-and-path part of the two `validate_youtube_url` patterns. */
  predicate VideoRest(r: string) {
    || (StartsWith(r, "youtube.com/") && ChannelPath(r[12..]))
    || (StartsWith(r, "youtu.be/") && NextIs(r[9..], IsWordChar))
  }

  /** `validate_youtube_url(url)`: `re.match` of either
      `(https?://)?(www\.)?youtube\.com/(channel/|@|user/)[\w-]+` or
      `(https?://)?(www\.)?youtu\.be/[\w-]+`, anchored at the start only. */
  predicate ValidateYoutubeUrl(url: string) {
    VideoRest(Host(url))
  }

  /** The host-and-path part of the `channel_url` pattern. */
  predicate ChannelRest(r: string) {
    || (StartsWith(r, "youtube.com/") && NextIs(r[12..], IsAnyChar))
    || (StartsWith(r, "youtu.be/") && NextIs(r[9..], IsAnyChar))
    || (StartsWith(r, "youtube/") && NextIs(r[8..], IsAnyChar))
  }

  /** The `channel_url` pattern of `PersonalInfo`:
      `^(https?\:\/\/)?(www\.)?(youtube\.com|youtu\.?be)\/.+`. */
  predicate ChannelUrlMatches(url: string) {
    ChannelRest(Host(url))
  }

  /** The regular-expression reading of an alternation of fixed paths
      followed by one character of a class. */
  ghost predicate PathMatch(r: string, paths: set<string>, ok: char -> bool) {
    exists p :: p in paths && StartsWith(r, p) && NextIs(r[|p|..], ok)
  }

  /** The regular-expression reading of a whole pattern: the string splits
      into a spelling of each optional group and a matching rest. */
  ghost predicate MatchesPattern(url: string, paths: set<string>, ok: char -> bool) {
    exists s, w, r :: s in Schemes && w in Wwws && url == s + w + r && PathMatch(r, paths, ok)
  }

  lemma StartsWithConcat(a: string, b: string)
    ensures StartsWith(a + b, a) && (a + b)[|a|..] == b
  {
  }

  lemma Associate(a: string, b: string, c: string)
    ensures a + b + c == a + (b + c)
  {
  }

  /** Splitting a string at a prefix it starts with. */
  lemma SplitAt(s: string, p: string)
    requires StartsWith(s, p)
    ensures s == p + s[|p|..]
  {
    assert forall i :: 0 <= i < |s| ==> s[i] == (p + s[|p|..])[i];
  }

  /** A prefix made of two parts is the first part followed by the second. */
  lemma StartsWithParts(r: string, a: string, b: string)
    ensures StartsWith(r, a + b) <==> StartsWith(r, a) && StartsWith(r[|a|..], b)
    ensures StartsWith(r, a + b) ==> r[|a + b|..] == r[|a|..][|b|..]
  {
    if StartsWith(r, a) && StartsWith(r[|a|..], b) {
      assert forall i :: |a| <= i < |a + b| ==> r[|a|..][i - |a|] == r[i];
    }
  }

  /** A string that differs from `p` at some position does not start with `p`. */
  lemma DiffersAt(s: string, p: string, i: nat)
    requires i < |p| && i < |s| && s[i] != p[i]
    ensures !StartsWith(s, p)
  {
  }

  /** The recogniser's consumption spells out the string. */
  lemma HostSplit(url: string)
    ensures url == Scheme(url) + Www(url[|Scheme(url)|..]) + Host(url)
  {
    var s := Scheme(url);
    var a := url[|s|..];
    SplitAt(url, s);
    SplitAt(a, Www(a));
  }

  /** A rest starting with `y` leaves no choice in the optional groups. */
  lemma HostOf(s: string, w: string, r: string)
    requires s in Schemes && w in Wwws
    requires |r| > 0 && r[0] == 'y'
    ensures Host(s + w + r) == r
  {
    var u := s + w + r;
    assert u == s + (w + r);
    StartsWithConcat(s, w + r);
    if s == "" {
      DiffersAt(u, "https://", 0);
      DiffersAt(u, "http://", 0);
    } else if s == "http://" {
      DiffersAt(u, "https://", 4);
    }
    assert Scheme(u) == s;
    StartsWithConcat(w, r);
    if w == "" {
      DiffersAt(w + r, "www.", 0);
    }
  }

  /** Every path of either pattern begins with `y`. */
  lemma PathStartsWithY(r: string, paths: set<string>, ok: char -> bool)
    requires paths == VideoPaths || paths == ChannelHosts
    requires PathMatch(r, paths, ok)
    ensures |r| > 0 && r[0] == 'y'
  {
    var p :| p in paths && StartsWith(r, p) && NextIs(r[|p|..], ok);
    assert p[0] == 'y';
  }

  /** The hand-coded recogniser and the regular-expression reading agree once
      the rest after the optional groups is seen the same way by both. */
  lemma HostMatches(url: string, paths: set<string>, ok: char -> bool)
    requires paths == VideoPaths || paths == ChannelHosts
    ensures MatchesPattern(url, paths, ok) <==> PathMatch(Host(url), paths, ok)
  {
    if PathMatch(Host(url), paths, ok) {
      HostSplit(url);
      var s := Scheme(url);
      var w := Www(url[|s|..]);
      assert s in Schemes && w in Wwws && url == s + w + Host(url);
    }
    if MatchesPattern(url, paths, ok) {
      var s, w, r :| s in Schemes && w in Wwws && url == s + w + r && PathMatch(r, paths, ok);
      PathStartsWithY(r, paths, ok);
      HostOf(s, w, r);
    }
  }

  lemma VideoRestIsPathMatch(r: string)
    ensures VideoRest(r) <==> PathMatch(r, VideoPaths, IsWordChar)
  {
    var yc := "youtube.com/";
    StartsWithParts(r, yc, "channel/");
    StartsWithParts(r, yc, "@");
    StartsWithParts(r, yc, "user/");
    assert yc + "channel/" == "youtube.com/channel/";
    assert yc + "@" == "youtube.com/@";
    assert yc + "user/" == "youtube.com/user/";
    if VideoRest(r) {
      if StartsWith(r, yc) && ChannelPath(r[12..]) {
        var q := r[12..];
        if StartsWith(q, "channel/") && NextIs(q[8..], IsWordChar) {
          assert StartsWith(r, "youtube.com/channel/");
        } else if StartsWith(q, "@") && NextIs(q[1..], IsWordChar) {
          assert StartsWith(r, "youtube.com/@");
        } else {
          assert StartsWith(r, "youtube.com/user/");
        }
      } else {
        assert StartsWith(r, "youtu.be/");
      }
    }
    if PathMatch(r, VideoPaths, IsWordChar) {
      var p :| p in VideoPaths && StartsWith(r, p) && NextIs(r[|p|..], IsWordChar);
    }
  }

  lemma ChannelRestIsPathMatch(r: string)
    ensures ChannelRest(r) <==> PathMatch(r, ChannelHosts, IsAnyChar)
  {
    if ChannelRest(r) {
      if StartsWith(r, "youtube.com/") && NextIs(r[12..], IsAnyChar) {
        assert "youtube.com/" in ChannelHosts;
      } else if StartsWith(r, "youtu.be/") && NextIs(r[9..], IsAnyChar) {
        assert "youtu.be/" in ChannelHosts;
      } else {
        assert "youtube/" in ChannelHosts;
      }
    }
  }

  /** The hand-coded recogniser accepts exactly the strings the two
      `validate_youtube_url` patterns match at their start. */
  lemma ValidateYoutubeUrlIsPatternMatch(url: string)
    ensures ValidateYoutubeUrl(url) <==> MatchesPattern(url, VideoPaths, IsWordChar)
  {
    HostMatches(url, VideoPaths, IsWordChar);
    VideoRestIsPathMatch(Host(url));
  }

  /** The hand-coded recogniser accepts exactly the strings the `channel_url`
      pattern matches. */
  lemma ChannelUrlIsPatternMatch(url: string)
    ensures ChannelUrlMatches(url) <==> MatchesPattern(url, ChannelHosts, IsAnyChar)
  {
    HostMatches(url, ChannelHosts, IsAnyChar);
    ChannelRestIsPathMatch(Host(url));
  }

  /** A path match survives anything appended after it. */
  lemma PathMatchExtends(r: string, suffix: string, paths: set<string>, ok: char -> bool)
    requires PathMatch(r, paths, ok)
    ensures PathMatch(r + suffix, paths, ok)
  {
    var p :| p in paths && StartsWith(r, p) && NextIs(r[|p|..], ok);
    assert (r + suffix)[|p|..][0] == r[|p|..][0];
    assert StartsWith(r + suffix, p);
  }

  /** A pattern match survives anything appended after it. */
  lemma MatchesPatternExtends(url: string, suffix: string, paths: set<string>, ok: char -> bool)
    requires MatchesPattern(url, paths, ok)
    ensures MatchesPattern(url + suffix, paths, ok)
  {
    var s, w, r :| s in Schemes && w in Wwws && url == s + w + r && PathMatch(r, paths, ok);
    PathMatchExtends(r, suffix, paths, ok);
    Associate(s + w, r, suffix);
    assert s in Schemes && w in Wwws && url + suffix == s + w + (r + suffix) && PathMatch(r + suffix, paths, ok);
  }

  /** `re.match` is anchored at the start only: whatever follows an accepted
      URL, the string stays accepted. */
  lemma ValidateYoutubeUrlIgnoresSuffix(url: string, suffix: string)
    requires ValidateYoutubeUrl(url)
    ensures ValidateYoutubeUrl(url + suffix)
  {
    ValidateYoutubeUrlIsPatternMatch(url);
    MatchesPatternExtends(url, suffix, VideoPaths, IsWordChar);
    ValidateYoutubeUrlIsPatternMatch(url + suffix);
  }

  /** A handle URL such as `https://youtube.com/@channel`, the documented
      example, is accepted with any scheme and `www.` spelling. */
  lemma HandleUrlAccepted(s: string, w: string, handle: string)
    requires s in Schemes && w in Wwws
    requires NextIs(handle, IsWordChar)
    ensures ValidateYoutubeUrl(s + w + "youtube.com/@" + handle)
  {
    var r := "youtube.com/@" + handle;
    assert s + w + "youtube.com/@" + handle == s + w + r;
    HostOf(s, w, r);
    StartsWithConcat("youtube.com/@", handle);
    assert StartsWith(r, "youtube.com/@") && NextIs(r[13..], IsWordChar);
    VideoRestIsPathMatch(r);
  }

  /** A bare channel name after the host, as in the schema's example
      `https://youtube.com/techinnovators`, passes the `channel_url` pattern
      but not `validate_youtube_url`, which wants `channel/`, `@` or `user/`
      after the host. */
  lemma BareChannelUrlDisagrees(s: string, w: string, name: string)
    requires s in Schemes && w in Wwws
    requires NextIs(name, IsWordChar) && name[0] != 'c' && name[0] != '@' && name[0] != 'u'
    ensures ChannelUrlMatches(s + w + "youtube.com/" + name)
    ensures !ValidateYoutubeUrl(s + w + "youtube.com/" + name)
  {
    var r := "youtube.com/" + name;
    assert s + w + "youtube.com/" + name == s + w + r;
    HostOf(s, w, r);
    StartsWithConcat("youtube.com/", name);
    DiffersAt(r, "youtu.be/", 5);
    DiffersAt(name, "channel/", 0);
    DiffersAt(name, "@", 0);
    DiffersAt(name, "user/", 0);
  }
}

=== FILE: json.dfy ===
/** The JSON-like values that the merge, analysis and report code pass around
    (Python dicts, lists and scalars), and the few Python builtins the code
    applies to them: `dict.get`, `d[key]`, `len`, iteration, truthiness and
    numeric `sum`. */
module Json {
  import opened Wrappers

  /** A nested value. An object keeps its entries in insertion order, as a
      Python dict does; a dict never holds a key twice, which is the
      `DistinctKeys` invariant below. */
  datatype Value =
    | Null
    | Bool(b: bool)
    | Int(i: int)
    | Real(r: real)
    | Str(s: string)
    | Arr(items: seq<Value>)
    | Obj(fields: seq<Entry>)

  type Entry = (string, Value)

  /** The exceptions the Python code can raise on ill-shaped input. */
  datatype PyError =
    | TypeError
    | AttributeError
    | KeyError(key: string)
    | ZeroDivisionError

  /** The keys of an object, in insertion order. */
  function Keys(fs: seq<Entry>): (ks: seq<string>)
    ensures |ks| == |fs|
    ensures forall i :: 0 <= i < |fs| ==> ks[i] == fs[i].0
  {
    seq(|fs|, i requires 0 <= i < |fs| => fs[i].0)
  }

  lemma KeysConcat(a: seq<Entry>, b: seq<Entry>)
    ensures Keys(a + b) == Keys(a) + Keys(b)
  {
    assert forall i :: 0 <= i < |a + b| ==> Keys(a + b)[i] == (Keys(a) + Keys(b))[i];
  }

  /** No key occurs twice. */
  predicate DistinctKeys(fs: seq<Entry>) {
    forall i, j :: 0 <= i < j < |fs| ==> fs[i].0 != fs[j].0
  }

  /** The value stored under `k` (the first one, should the key repeat). */
  function Lookup(fs: seq<Entry>, k: string): (r: Option<Value>)
    ensures r.Some? <==> k in Keys(fs)
    ensures r.Some? ==> (k, r.value) in fs
    ensures r.None? ==> forall i :: 0 <= i < |fs| ==> fs[i].0 != k
  {
    if |fs| == 0 then None
    else if fs[0].0 == k then Some(fs[0].1)
    else
      var r := Lookup(fs[1..], k);
      assert Keys(fs) == [fs[0].0] + Keys(fs[1..]);
      r
  }

  /** With distinct keys, the entry at position `i` is what `Lookup` finds. */
  lemma {:induction false} LookupAt(fs: seq<Entry>, i: nat)
    requires DistinctKeys(fs)
    requires i < |fs|
    ensures Lookup(fs, fs[i].0) == Some(fs[i].1)
  {
    if i > 0 {
      assert fs[0].0 != fs[i].0;
      LookupAt(fs[1..], i - 1);
    }
  }

  /** Every object, at every depth, has distinct keys: the shape a tree of
      Python dicts and lists always has. */
  predicate WellFormed(v: Value)
    decreases v
  {
    match v
    case Arr(items) => forall i :: 0 <= i < |items| ==> WellFormed(items[i])
    case Obj(fs) => DistinctKeys(fs) && forall i :: 0 <= i < |fs| ==> WellFormed(fs[i].1)
    case _ => true
  }

  /** The entries of a Python dict holding any values. */
  type Dict = fs: seq<Entry> | WellFormed(Obj(fs)) witness []

  /** `d.get(k, default)` on a dict. */
  function Get(fs: seq<Entry>, k: string, default: Value): (r: Value)
    ensures k !in Keys(fs) ==> r == default
    ensures k in Keys(fs) ==> (k, r) in fs
  {
    match Lookup(fs, k)
    case Some(v) => v
    case None => default
  }

  /** `x.get(k, default)` where `x` may be any value: only dicts have `get`. */
  function GetOn(x: Value, k: string, default: Value): (r: Result<Value, PyError>)
    ensures r.Success? <==> x.Obj?
    ensures r.Failure? ==> r.error == AttributeError
  {
    if x.Obj? then Success(Get(x.fields, k, default)) else Failure(AttributeError)
  }

  /** `x[k]` with a string key: a dict lookup, a KeyError when the key is
      missing, a TypeError on anything that is not a dict. */
  function Subscript(x: Value, k: string): (r: Result<Value, PyError>)
    ensures r.Success? <==> x.Obj? && k in Keys(x.fields)
    ensures r.Success? ==> (k, r.value) in x.fields
    ensures r.Failure? && x.Obj? ==> r.error == KeyError(k)
    ensures r.Failure? && !x.Obj? ==> r.error == TypeError
  {
    match x
    case Obj(fs) =>
      (match Lookup(fs, k)
       case Some(v) => Success(v)
       case None => Failure(KeyError(k)))
    case _ => Failure(TypeError)
  }

  /** What `for y in x` visits: the items of a list, the keys of a dict, the
      one-character strings of a string; anything else is not iterable. */
  function Iterate(x: Value): (r: Result<seq<Value>, PyError>)
    ensures r.Success? <==> (x.Arr? || x.Obj? || x.Str?)
    ensures r.Failure? ==> r.error == TypeError
    ensures x.Arr? ==> r == Success(x.items)
    ensures x.Obj? ==> r.Success? && |r.value| == |x.fields|
    ensures x.Str? ==> r.Success? && |r.value| == |x.s|
  {
    match x
    case Arr(items) => Success(items)
    case Obj(fs) => Success(seq(|fs|, i requires 0 <= i < |fs| => Str(fs[i].0)))
    case Str(s) => Success(seq(|s|, i requires 0 <= i < |s| => Str([s[i]])))
    case _ => Failure(TypeError)
  }

  /** `len(x)`: defined for exactly the values `Iterate` accepts, and equal to
      the number of things iterating visits. */
  function Len(x: Value): (r: Result<nat, PyError>)
    ensures r.Success? <==> Iterate(x).Success?
    ensures r.Success? ==> r.value == |Iterate(x).value|
    ensures r.Failure? ==> r.error == TypeError
  {
    match x
    case Arr(items) => Success(|items|)
    case Obj(fs) => Success(|fs|)
    case Str(s) => Success(|s|)
    case _ => Failure(TypeError)
  }

  /** Python truthiness: empty containers, zero, False and None are false. */
  predicate Truthy(x: Value) {
    match x
    case Null => false
    case Bool(b) => b
    case Int(i) => i != 0
    case Real(r) => r != 0.0
    case Str(s) => |s| > 0
    case Arr(items) => |items| > 0
    case Obj(fs) => |fs| > 0
  }

  /** The number `x` contributes to `sum(...)`: ints, floats and booleans are
      numbers; adding anything else raises TypeError. */
  function AsNumber(x: Value): (r: Result<real, PyError>)
    ensures r.Success? <==> (x.Int? || x.Real? || x.Bool?)
    ensures x.Int? ==> r == Success(x.i as real)
    ensures x.Real? ==> r == Success(x.r)
  {
    match x
    case Int(i) => Success(i as real)
    case Real(r) => Success(r)
    case Bool(b) => Success(if b then 1.0 else 0.0)
    case _ => Failure(TypeError)
  }
}

=== FILE: merge.dfy ===
/** The deep merge of creator records: `merge_content_creator_info` and its
    inner `recursive_merge` (utils.py), and the left fold over several
    sources in `merge_data_sources` (agent.py). */
module Merge {
  import opened Wrappers
  import opened Json

  /** `recursive_merge(base, update)`: two dicts merge key by key, two lists
      concatenate, and in every other pairing the update wins. */
  function MergeValue(base: Value, update: Value): (r: Value)
    decreases update, 2
  {
    if base.Obj? && update.Obj? then Obj(MergeFrom(base.fields, update.fields, 0))
    else if base.Arr? && update.Arr? then Arr(base.items + update.items)
    else update
  }

  /** The dict branch of `recursive_merge`: walk the update's entries from
      position `i` on, in order, merging each into the base. */
  function MergeFrom(base: seq<Entry>, update: seq<Entry>, i: nat): (r: seq<Entry>)
    requires i <= |update|
    decreases Obj(update), 1, |update| - i
  {
    if i == |update| then base
    else
      assert update[i] in update;
      MergeFrom(Upsert(base, update[i].0, update[i].1), update, i + 1)
  }

  /** One step of that walk: a key already in the base keeps its position and
      gets the recursive merge of the two values; a new key is appended. */
  function Upsert(base: seq<Entry>, k: string, v: Value): (r: seq<Entry>)
    decreases v, 3, |base|
  {
    if |base| == 0 then [(k, v)]
    else if base[0].0 == k then [(k, MergeValue(base[0].1, v))] + base[1..]
    else [base[0]] + Upsert(base[1..], k, v)
  }

  /** The merge of two dicts. */
  function MergeEntries(base: seq<Entry>, update: seq<Entry>): seq<Entry> {
    MergeFrom(base, update, 0)
  }

  /** What a merged dict holds under one key, given what the base and the
      update hold there. */
  function Combine(b: Option<Value>, u: Option<Value>): Option<Value> {
    match (b, u)
    case (Some(bv), Some(uv)) => Some(MergeValue(bv, uv))
    case (Some(bv), None) => Some(bv)
    case (None, _) => u
  }

  /** The keys of `ks` that are not in `seen`, in their order in `ks`. */
  function NewKeys(ks: seq<string>, seen: seq<string>): (r: seq<string>)
    ensures forall x :: x in r <==> x in ks && x !in seen
  {
    if |ks| == 0 then []
    else (if ks[0] in seen then [] else [ks[0]]) + NewKeys(ks[1..], seen)
  }

  lemma {:induction false} NewKeysIgnores(ks: seq<string>, seen: seq<string>, x: string)
    requires x !in ks
    ensures NewKeys(ks, seen + [x]) == NewKeys(ks, seen)
  {
    if |ks| > 0 {
      assert ks[0] in seen + [x] <==> ks[0] in seen;
      NewKeysIgnores(ks[1..], seen, x);
    }
  }

  lemma DistinctSuffix(fs: seq<Entry>, i: nat)
    requires DistinctKeys(fs)
    requires i < |fs|
    ensures DistinctKeys(fs[i..])
    ensures fs[i].0 !in Keys(fs[i + 1..])
    ensures Keys(fs[i..]) == [fs[i].0] + Keys(fs[i + 1..])
    ensures fs[i..][1..] == fs[i + 1..]
  {
    forall k | i < k < |fs|
      ensures fs[k].0 != fs[i].0
    {
    }
  }

  lemma DistinctFromKeys(a: seq<Entry>, b: seq<Entry>)
    requires Keys(a) == Keys(b)
    ensures DistinctKeys(a) <==> DistinctKeys(b)
  {
    assert forall i :: 0 <= i < |a| ==> a[i].0 == Keys(b)[i] == b[i].0;
  }

  lemma DistinctAppend(a: seq<Entry>, k: string, v: Value)
    requires DistinctKeys(a) && k !in Keys(a)
    ensures DistinctKeys(a + [(k, v)])
  {
    forall i | 0 <= i < |a| ensures a[i].0 != k {
      assert Keys(a)[i] == a[i].0;
    }
  }

  lemma {:induction false} UpsertKeys(base: seq<Entry>, k: string, v: Value)
    ensures Keys(Upsert(base, k, v)) == if k in Keys(base) then Keys(base) else Keys(base) + [k]
  {
    var r := Upsert(base, k, v);
    if |base| > 0 {
      assert Keys(base) == [base[0].0] + Keys(base[1..]);
      if base[0].0 != k {
        UpsertKeys(base[1..], k, v);
        assert r == [base[0]] + Upsert(base[1..], k, v);
        KeysConcat([base[0]], Upsert(base[1..], k, v));
      } else {
        assert Keys(r) == Keys(base);
      }
    }
  }

  lemma {:induction false} UpsertLookup(base: seq<Entry>, k: string, v: Value)
    ensures Lookup(Upsert(base, k, v), k) == Combine(Lookup(base, k), Some(v))
    ensures forall k' :: k' != k ==> Lookup(Upsert(base, k, v), k') == Lookup(base, k')
  {
    var r := Upsert(base, k, v);
    if |base| > 0 {
      if base[0].0 == k {
        assert r[1..] == base[1..];
      } else {
        UpsertLookup(base[1..], k, v);
        assert r[1..] == Upsert(base[1..], k, v);
      }
    }
  }

  /** `Upsert` keeps a dict a dict. */
  lemma UpsertDistinct(base: seq<Entry>, k: string, v: Value)
    requires DistinctKeys(base)
    ensures DistinctKeys(Upsert(base, k, v))
  {
    UpsertKeys(base, k, v);
    {
      if k in Keys(base) {
        DistinctFromKeys(base, Upsert(base, k, v));
      } else {
        DistinctAppend(base, k, v);
        KeysConcat(base, [(k, v)]);
        DistinctFromKeys(base + [(k, v)], Upsert(base, k, v));
      }
    }
  }

  lemma {:induction false} MergeFromKeys(base: seq<Entry>, update: seq<Entry>, i: nat)
    requires DistinctKeys(base) && DistinctKeys(update)
    requires i <= |update|
    ensures DistinctKeys(MergeFrom(base, update, i))
    ensures Keys(MergeFrom(base, update, i)) == Keys(base) + NewKeys(Keys(update[i..]), Keys(base))
    decreases |update| - i
  {
    if i < |update| {
      var k0, v0 := update[i].0, update[i].1;
      UpsertDistinct(base, k0, v0);
      MergeFromKeys(Upsert(base, k0, v0), update, i + 1);
      MergeFromKeysStep(base, update, i);
    }
  }

  /** One step of the key order: upserting the next update entry and
      continuing with the rest lists the same keys as the whole suffix. */
  lemma MergeFromKeysStep(base: seq<Entry>, update: seq<Entry>, i: nat)
    requires DistinctKeys(update)
    requires i < |update|
    ensures var base' := Upsert(base, update[i].0, update[i].1);
            Keys(base') + NewKeys(Keys(update[i + 1..]), Keys(base'))
            == Keys(base) + NewKeys(Keys(update[i..]), Keys(base))
  {
    var k0, v0 := update[i].0, update[i].1;
    UpsertKeys(base, k0, v0);
    DistinctSuffix(update, i);
    NewKeysStep(Keys(base), Keys(Upsert(base, k0, v0)), k0, Keys(update[i + 1..]));
  }

  /** The key-order bookkeeping of that step, on key lists alone. */
  lemma NewKeysStep(seen: seq<string>, seen': seq<string>, k: string, rest: seq<string>)
    requires k !in rest
    requires seen' == if k in seen then seen else seen + [k]
    ensures seen' + NewKeys(rest, seen') == seen + NewKeys([k] + rest, seen)
  {
    NewKeysCons(k, rest, seen);
    if k !in seen {
      NewKeysUnseen(seen, k, rest);
    }
  }

  lemma NewKeysUnseen(seen: seq<string>, k: string, rest: seq<string>)
    requires k !in rest && k !in seen
    ensures (seen + [k]) + NewKeys(rest, seen + [k]) == seen + ([k] + NewKeys(rest, seen))
  {
    NewKeysIgnores(rest, seen, k);
  }

  lemma NewKeysCons(k: string, rest: seq<string>, seen: seq<string>)
    ensures NewKeys([k] + rest, seen) == (if k in seen then [] else [k]) + NewKeys(rest, seen)
  {
    assert ([k] + rest)[1..] == rest;
  }

  lemma {:induction false} MergeFromLookup(base: seq<Entry>, update: seq<Entry>, i: nat, k: string)
    requires DistinctKeys(update)
    requires i <= |update|
    ensures Lookup(MergeFrom(base, update, i), k) == Combine(Lookup(base, k), Lookup(update[i..], k))
    decreases |update| - i
  {
    if i < |update| {
      var k0, v0 := update[i].0, update[i].1;
      var base' := Upsert(base, k0, v0);
      UpsertLookup(base, k0, v0);
      DistinctSuffix(update, i);
      MergeFromLookup(base', update, i + 1, k);
      if k == k0 {
        assert Lookup(update[i + 1..], k0).None?;
      }
    }
  }

  /** The characterisation of the dict merge: the result is a dict whose keys
      are the base's keys in their places followed by the update's new keys in
      the update's order, holding at each key what `Combine` says. */
  lemma MergeEntriesSpec(base: seq<Entry>, update: seq<Entry>)
    requires DistinctKeys(base) && DistinctKeys(update)
    ensures DistinctKeys(MergeEntries(base, update))
    ensures Keys(MergeEntries(base, update)) == Keys(base) + NewKeys(Keys(update), Keys(base))
    ensures forall k :: Lookup(MergeEntries(base, update), k) == Combine(Lookup(base, k), Lookup(update, k))
  {
    MergeFromKeys(base, update, 0);
    assert update[0..] == update;
    forall k
      ensures Lookup(MergeEntries(base, update), k) == Combine(Lookup(base, k), Lookup(update, k))
    {
      MergeFromLookup(base, update, 0, k);
    }
  }

  /** `merge_content_creator_info(source1, source2)`: the merge of two dicts.
      Every key of either source is in the result; the first source's keys
      keep their places and the second source's new keys follow in its order;
      a key only one source has keeps that source's value, and a shared key
      holds the recursive merge of the two values. */
  function MergeCreatorInfo(source1: seq<Entry>, source2: seq<Entry>): (merged: seq<Entry>)
    requires DistinctKeys(source1) && DistinctKeys(source2)
    ensures DistinctKeys(merged)
    ensures forall k :: k in Keys(merged) <==> k in Keys(source1) || k in Keys(source2)
    ensures Keys(merged) == Keys(source1) + NewKeys(Keys(source2), Keys(source1))
    ensures forall k :: k in Keys(source1) && k !in Keys(source2) ==> Lookup(merged, k) == Lookup(source1, k)
    ensures forall k :: k !in Keys(source1) && k in Keys(source2) ==> Lookup(merged, k) == Lookup(source2, k)
    ensures forall k :: k in Keys(source1) && k in Keys(source2) ==>
              Lookup(merged, k) == Some(MergeValue(Lookup(source1, k).value, Lookup(source2, k).value))
  {
    MergeEntriesSpec(source1, source2);
    MergeEntries(source1, source2)
  }

  /** The three cases of `recursive_merge` as facts about its result: dicts
      give a dict over the union of the keys, lists give the base followed by
      the update, and any other pairing gives the update. */
  lemma MergeValueCases(base: Value, update: Value)
    ensures base.Obj? && update.Obj? && DistinctKeys(base.fields) && DistinctKeys(update.fields) ==>
              MergeValue(base, update).Obj? &&
              (forall k :: k in Keys(MergeValue(base, update).fields) <==>
                             k in Keys(base.fields) || k in Keys(update.fields))
    ensures base.Arr? && update.Arr? ==>
              MergeValue(base, update).Arr? &&
              |MergeValue(base, update).items| == |base.items| + |update.items| &&
              MergeValue(base, update).items[..|base.items|] == base.items &&
              MergeValue(base, update).items[|base.items|..] == update.items
    ensures !(base.Obj? && update.Obj?) && !(base.Arr? && update.Arr?) ==> MergeValue(base, update) == update
  {
    if base.Obj? && update.Obj? && DistinctKeys(base.fields) && DistinctKeys(update.fields) {
      MergeEntriesSpec(base.fields, update.fields);
    }
  }

  lemma {:induction false} UpsertAbsent(base: seq<Entry>, k: string, v: Value)
    requires k !in Keys(base)
    ensures Upsert(base, k, v) == base + [(k, v)]
  {
    if |base| > 0 {
      assert Keys(base) == [base[0].0] + Keys(base[1..]);
      UpsertAbsent(base[1..], k, v);
      assert [base[0]] + (base[1..] + [(k, v)]) == base + [(k, v)];
    }
  }

  lemma {:induction false} MergeFromDisjoint(base: seq<Entry>, update: seq<Entry>, i: nat)
    requires DistinctKeys(update)
    requires i <= |update|
    requires forall k :: k in Keys(update[i..]) ==> k !in Keys(base)
    ensures MergeFrom(base, update, i) == base + update[i..]
    decreases |update| - i
  {
    if i < |update| {
      var e := update[i];
      DisjointStep(base, update, i);
      MergeFromDisjoint(base + [e], update, i + 1);
      assert base + [e] + update[i + 1..] == base + update[i..];
    }
  }

  /** One step of a disjoint merge appends the next entry, and the rest of
      the update stays disjoint from the grown base. */
  lemma DisjointStep(base: seq<Entry>, update: seq<Entry>, i: nat)
    requires DistinctKeys(update)
    requires i < |update|
    requires forall k :: k in Keys(update[i..]) ==> k !in Keys(base)
    ensures MergeFrom(base, update, i) == MergeFrom(base + [update[i]], update, i + 1)
    ensures forall k :: k in Keys(update[i + 1..]) ==> k !in Keys(base + [update[i]])
  {
    var e := update[i];
    DistinctSuffix(update, i);
    UpsertAbsent(base, e.0, e.1);
    KeysConcat(base, [e]);
  }

  /** An update whose keys are all new is appended as it stands. */
  lemma MergeDisjoint(base: seq<Entry>, update: seq<Entry>)
    requires DistinctKeys(update)
    requires forall k :: k in Keys(update) ==> k !in Keys(base)
    ensures MergeEntries(base, update) == base + update
  {
    assert update[0..] == update;
    MergeFromDisjoint(base, update, 0);
  }

  /** Merging into an empty dict gives the update back, and merging an empty
      update gives the base back. */
  lemma MergeIdentity(fs: seq<Entry>)
    requires DistinctKeys(fs)
    ensures MergeEntries([], fs) == fs
    ensures MergeEntries(fs, []) == fs
    ensures MergeValue(Obj(fs), Obj([])) == Obj(fs)
    ensures MergeValue(Obj([]), Obj(fs)) == Obj(fs)
  {
    MergeDisjoint([], fs);
  }

  lemma DistinctConcat(b: seq<Entry>, c: seq<Entry>)
    requires DistinctKeys(b) && DistinctKeys(c)
    requires forall k :: k in Keys(b) ==> k !in Keys(c)
    ensures DistinctKeys(b + c)
  {
    forall i, j | 0 <= i < j < |b + c|
      ensures (b + c)[i].0 != (b + c)[j].0
    {
      if j < |b| {
        assert (b + c)[i] == b[i] && (b + c)[j] == b[j];
      } else if i >= |b| {
        assert (b + c)[i] == c[i - |b|] && (b + c)[j] == c[j - |b|];
      } else {
        var x, y := Keys(b)[i], Keys(c)[j - |b|];
        assert x in Keys(b) && y in Keys(c);
        assert (b + c)[i].0 == x && (b + c)[j].0 == y;
      }
    }
  }

  /** For dicts whose keys are pairwise disjoint the merge is associative. */
  lemma MergeAssociativeDisjoint(a: seq<Entry>, b: seq<Entry>, c: seq<Entry>)
    requires DistinctKeys(b) && DistinctKeys(c)
    requires forall k :: k in Keys(a) ==> k !in Keys(b) && k !in Keys(c)
    requires forall k :: k in Keys(b) ==> k !in Keys(c)
    ensures MergeEntries(MergeEntries(a, b), c) == MergeEntries(a, MergeEntries(b, c))
  {
    MergeDisjoint(a, b);
    MergeDisjoint(b, c);
    KeysConcat(a, b);
    KeysConcat(b, c);
    MergeDisjoint(a + b, c);
    DistinctConcat(b, c);
    MergeDisjoint(a, b + c);
    assert (a + b) + c == a + (b + c);
  }

  /** List concatenation follows call order, so the merge does not commute. */
  lemma ListOrderFollowsCallOrder()
    ensures MergeValue(Obj([("x", Arr([Int(1)]))]), Obj([("x", Arr([Int(2)]))]))
         == Obj([("x", Arr([Int(1), Int(2)]))])
    ensures MergeValue(Obj([("x", Arr([Int(2)]))]), Obj([("x", Arr([Int(1)]))]))
         == Obj([("x", Arr([Int(2), Int(1)]))])
  {
    var one, two := Arr([Int(1)]), Arr([Int(2)]);
    assert MergeValue(one, two) == Arr([Int(1), Int(2)]);
    assert MergeValue(two, one) == Arr([Int(2), Int(1)]);
    assert Upsert([("x", one)], "x", two) == [("x", Arr([Int(1), Int(2)]))];
    assert Upsert([("x", two)], "x", one) == [("x", Arr([Int(2), Int(1)]))];
  }

  predicate AllWellFormed(fs: seq<Entry>) {
    forall i :: 0 <= i < |fs| ==> WellFormed(fs[i].1)
  }

  /** Merging keeps the tree well formed: every dict at every depth of the
      result has distinct keys. */
  lemma {:induction false} MergeValueWellFormed(base: Value, update: Value)
    requires WellFormed(base) && WellFormed(update)
    ensures WellFormed(MergeValue(base, update))
    decreases update, 2
  {
    if base.Obj? && update.Obj? {
      MergeFromWellFormed(base.fields, update.fields, 0);
    } else if base.Arr? && update.Arr? {
      var bs, us := base.items, update.items;
      var r := bs + us;
      forall i | 0 <= i < |r|
        ensures WellFormed(r[i])
      {
        if i < |bs| { assert r[i] == bs[i]; } else { assert r[i] == us[i - |bs|]; }
      }
    }
  }

  lemma {:induction false} MergeFromWellFormed(base: seq<Entry>, update: seq<Entry>, i: nat)
    requires DistinctKeys(base) && AllWellFormed(base)
    requires DistinctKeys(update) && AllWellFormed(update)
    requires i <= |update|
    ensures WellFormed(Obj(MergeFrom(base, update, i)))
    decreases Obj(update), 1, |update| - i
  {
    if i < |update| {
      assert update[i] in update;
      UpsertWellFormed(base, update[i].0, update[i].1);
      UpsertDistinct(base, update[i].0, update[i].1);
      MergeFromWellFormed(Upsert(base, update[i].0, update[i].1), update, i + 1);
    }
  }

  lemma {:induction false} UpsertWellFormed(base: seq<Entry>, k: string, v: Value)
    requires AllWellFormed(base) && WellFormed(v)
    ensures AllWellFormed(Upsert(base, k, v))
    decreases v, 3, |base|
  {
    var r := Upsert(base, k, v);
    if |base| == 0 {
    } else if base[0].0 == k {
      MergeValueWellFormed(base[0].1, v);
      forall i | 0 <= i < |r| ensures WellFormed(r[i].1) {
        if i > 0 { assert r[i] == base[i]; }
      }
    } else {
      forall i | 0 <= i < |base[1..]| ensures WellFormed(base[1..][i].1) {
        assert base[1..][i] == base[i + 1];
      }
      UpsertWellFormed(base[1..], k, v);
      forall i | 0 <= i < |r| ensures WellFormed(r[i].1) {
        if i > 0 { assert r[i] == Upsert(base[1..], k, v)[i - 1]; }
      }
    }
  }

  /** `merge_data_sources(s1, ..., sn)` as a left fold from the empty dict:
      merge(...merge(merge({}, s1), s2)..., sn). */
  function MergeAll(sources: seq<seq<Entry>>): (merged: seq<Entry>)
    decreases |sources|
  {
    if |sources| == 0 then []
    else MergeEntries(MergeAll(sources[..|sources| - 1]), sources[|sources| - 1])
  }

  /** The loop of `merge_data_sources`: it computes the fold in argument order,
      yields a dict, and its keys are those of all the sources together. */
  method MergeDataSources(sources: seq<seq<Entry>>) returns (merged: seq<Entry>)
    requires forall i :: 0 <= i < |sources| ==> DistinctKeys(sources[i])
    ensures merged == MergeAll(sources)
    ensures DistinctKeys(merged)
    ensures forall k :: k in Keys(merged) <==> exists i :: 0 <= i < |sources| && k in Keys(sources[i])
  {
    merged := [];
    var n := 0;
    while n < |sources|
      invariant 0 <= n <= |sources|
      invariant merged == MergeAll(sources[..n])
      invariant DistinctKeys(merged)
      invariant forall k :: k in Keys(merged) <==> exists i :: 0 <= i < n && k in Keys(sources[i])
    {
      assert sources[..n + 1][..n] == sources[..n];
      merged := MergeCreatorInfo(merged, sources[n]);
      n := n + 1;
    }
    assert sources[..n] == sources;
  }

  /** A single source passes through the fold unchanged. */
  lemma MergeAllSingle(s: seq<Entry>)
    requires DistinctKeys(s)
    ensures MergeAll([s]) == s
  {
    assert [s][..0] == [];
    MergeIdentity(s);
  }
}

=== FILE: render.dfy ===
/** The Markdown report outline built by `save_output_to_markdown` and its
    nested `process_section` (utils.py). The lines are modelled as records
    carrying their heading level; `Text` turns a record into the exact string
    the code appends, given Python's `str.title()` and `str()` as parameters. */
module Render {
  import opened Json

  /** One line of the report. */
  datatype Line =
    | ReportTitle                          // the fixed first line
    | Heading(level: nat, key: string)     // a dict or list: `#`*level and the key
    | Bullet(item: Value)                  // a non-dict item of a list
    | KeyValue(key: string, value: Value)  // a scalar: `**Key:** value`

  /** Every heading is at `level` or deeper. */
  predicate LevelsFrom(ls: seq<Line>, level: nat) {
    forall i :: 0 <= i < |ls| && ls[i].Heading? ==> ls[i].level >= level
  }

  /** An outline that skips no level: every heading deeper than `level` has,
      somewhere above it, a heading exactly one level shallower. */
  predicate Outline(ls: seq<Line>, level: nat) {
    forall i :: 0 <= i < |ls| && ls[i].Heading? && ls[i].level > level ==>
      exists j :: 0 <= j < i && ls[j].Heading? && ls[j].level == ls[i].level - 1
  }

  lemma OutlineConcat(a: seq<Line>, b: seq<Line>, level: nat)
    requires LevelsFrom(a, level) && Outline(a, level)
    requires LevelsFrom(b, level) && Outline(b, level)
    ensures LevelsFrom(a + b, level) && Outline(a + b, level)
  {
    var c := a + b;
    forall i | 0 <= i < |c| && c[i].Heading? && c[i].level > level
      ensures exists j :: 0 <= j < i && c[j].Heading? && c[j].level == c[i].level - 1
    {
      if i < |a| {
        var j :| 0 <= j < i && a[j].Heading? && a[j].level == a[i].level - 1;
        assert c[j] == a[j];
      } else {
        assert c[i] == b[i - |a|];
        var j :| 0 <= j < i - |a| && b[j].Heading? && b[j].level == b[i - |a|].level - 1;
        assert c[j + |a|] == b[j];
      }
    }
  }

  lemma OutlineUnder(k: string, c: seq<Line>, level: nat)
    requires LevelsFrom(c, level + 1) && Outline(c, level + 1)
    ensures LevelsFrom([Heading(level, k)] + c, level)
    ensures Outline([Heading(level, k)] + c, level)
  {
    var r := [Heading(level, k)] + c;
    forall i | 0 <= i < |r| && r[i].Heading? && r[i].level > level
      ensures exists j :: 0 <= j < i && r[j].Heading? && r[j].level == r[i].level - 1
    {
      assert r[i] == c[i - 1];
      if r[i].level == level + 1 {
        assert r[0].Heading? && r[0].level == r[i].level - 1;
      } else {
        var j :| 0 <= j < i - 1 && c[j].Heading? && c[j].level == c[i - 1].level - 1;
        assert r[j + 1] == c[j];
      }
    }
  }

  /** `process_section(key, value, level)`: a dict or a list opens a heading at
      `level` and its contents go one level deeper; a scalar is one
      `**Key:** value` line. */
  function Section(key: string, v: Value, level: nat): (r: seq<Line>)
    decreases v, 1
    ensures |r| >= 1
    ensures v.Obj? || v.Arr? ==> r[0] == Heading(level, key)
    ensures !v.Obj? && !v.Arr? ==> r == [KeyValue(key, v)]
  {
    match v
    case Obj(fs) => [Heading(level, key)] + Sections(fs, level + 1, 0)
    case Arr(items) => [Heading(level, key)] + Items(items, level + 1, 0)
    case _ => [KeyValue(key, v)]
  }

  /** The loop `for k, v in value.items(): process_section(k, v, level)`, from
      entry `i` on. */
  function Sections(fs: seq<Entry>, level: nat, i: nat): (r: seq<Line>)
    requires i <= |fs|
    decreases Obj(fs), 0, |fs| - i
  {
    if i == |fs| then []
    else
      assert fs[i] in fs;
      Section(fs[i].0, fs[i].1, level) + Sections(fs, level, i + 1)
  }

  /** The loop over a list's items from item `i` on. */
  function Items(items: seq<Value>, level: nat, i: nat): (r: seq<Line>)
    requires i <= |items|
    decreases Arr(items), 0, |items| - i
  {
    if i == |items| then []
    else ItemLines(items[i], level) + Items(items, level, i + 1)
  }

  /** One item of a list: a dict item is an anonymous section at `level`, any
      other item a single bullet. */
  function ItemLines(x: Value, level: nat): (r: seq<Line>)
    decreases x, 2
    ensures |r| >= 1
    ensures r[0] == if x.Obj? then Heading(level, "") else Bullet(x)
    ensures !x.Obj? ==> |r| == 1
  {
    if x.Obj? then Section("", x, level) else [Bullet(x)]
  }

  /** The whole report: the title line, then every top-level entry as a
      section at level 2. */
  function Render(data: seq<Entry>): (r: seq<Line>)
    ensures |r| >= 1 && r[0] == ReportTitle
  {
    [ReportTitle] + Sections(data, 2, 0)
  }

  /** A section is an outline rooted at its level: no heading above `level`,
      and each nested dict or list exactly one level below its parent. */
  lemma {:induction false} SectionOutline(key: string, v: Value, level: nat)
    ensures LevelsFrom(Section(key, v, level), level) && Outline(Section(key, v, level), level)
    decreases v, 1
  {
    match v
    case Obj(fs) =>
      SectionsOutline(fs, level + 1, 0);
      OutlineUnder(key, Sections(fs, level + 1, 0), level);
    case Arr(items) =>
      ItemsOutline(items, level + 1, 0);
      OutlineUnder(key, Items(items, level + 1, 0), level);
    case _ =>
  }

  lemma {:induction false} SectionsOutline(fs: seq<Entry>, level: nat, i: nat)
    requires i <= |fs|
    ensures LevelsFrom(Sections(fs, level, i), level) && Outline(Sections(fs, level, i), level)
    decreases Obj(fs), 0, |fs| - i
  {
    if i < |fs| {
      assert fs[i] in fs;
      SectionOutline(fs[i].0, fs[i].1, level);
      SectionsOutline(fs, level, i + 1);
      OutlineConcat(Section(fs[i].0, fs[i].1, level), Sections(fs, level, i + 1), level);
    }
  }

  lemma {:induction false} ItemsOutline(items: seq<Value>, level: nat, i: nat)
    requires i <= |items|
    ensures LevelsFrom(Items(items, level, i), level) && Outline(Items(items, level, i), level)
    decreases Arr(items), 0, |items| - i
  {
    if i < |items| {
      var a := ItemLines(items[i], level);
      if items[i].Obj? {
        SectionOutline("", items[i], level);
      }
      ItemsOutline(items, level, i + 1);
      OutlineConcat(a, Items(items, level, i + 1), level);
    }
  }

  /** The report body is an outline whose top sections sit at level 2. */
  lemma RenderOutline(data: seq<Entry>)
    ensures LevelsFrom(Render(data)[1..], 2) && Outline(Render(data)[1..], 2)
  {
    SectionsOutline(data, 2, 0);
    assert Render(data)[1..] == Sections(data, 2, 0);
  }

  /** The keys of the headings at exactly `level`, in order. */
  function HeadingKeysAt(ls: seq<Line>, level: nat): seq<string> {
    if |ls| == 0 then []
    else (if ls[0].Heading? && ls[0].level == level then [ls[0].key] else [])
         + HeadingKeysAt(ls[1..], level)
  }

  /** The keys whose values are dicts or lists, in order. */
  function ContainerKeys(fs: seq<Entry>): seq<string> {
    if |fs| == 0 then []
    else (if fs[0].1.Obj? || fs[0].1.Arr? then [fs[0].0] else []) + ContainerKeys(fs[1..])
  }

  lemma {:induction false} HeadingKeysConcat(a: seq<Line>, b: seq<Line>, level: nat)
    ensures HeadingKeysAt(a + b, level) == HeadingKeysAt(a, level) + HeadingKeysAt(b, level)
  {
    if |a| == 0 {
      assert a + b == b;
    } else {
      assert (a + b)[0] == a[0];
      assert (a + b)[1..] == a[1..] + b;
      HeadingKeysConcat(a[1..], b, level);
      var h := if a[0].Heading? && a[0].level == level then [a[0].key] else [];
      assert h + HeadingKeysAt(a[1..], level) + HeadingKeysAt(b, level)
          == h + (HeadingKeysAt(a[1..], level) + HeadingKeysAt(b, level));
    }
  }

  lemma {:induction false} HeadingKeysDeeper(ls: seq<Line>, level: nat)
    requires LevelsFrom(ls, level + 1)
    ensures HeadingKeysAt(ls, level) == []
  {
    if |ls| > 0 {
      HeadingKeysDeeper(ls[1..], level);
    }
  }

  lemma {:induction false} SectionsHeadingKeys(fs: seq<Entry>, level: nat, i: nat)
    requires i <= |fs|
    ensures HeadingKeysAt(Sections(fs, level, i), level) == ContainerKeys(fs[i..])
    decreases |fs| - i
  {
    if i < |fs| {
      var v := fs[i].1;
      var a := Section(fs[i].0, v, level);
      SectionsHeadingKeys(fs, level, i + 1);
      HeadingKeysConcat(a, Sections(fs, level, i + 1), level);
      assert fs[i..][1..] == fs[i + 1..];
      if v.Obj? || v.Arr? {
        if v.Obj? {
          SectionsOutline(v.fields, level + 1, 0);
          assert a[1..] == Sections(v.fields, level + 1, 0);
        } else {
          ItemsOutline(v.items, level + 1, 0);
          assert a[1..] == Items(v.items, level + 1, 0);
        }
        HeadingKeysDeeper(a[1..], level);
        assert a == [a[0]] + a[1..];
        HeadingKeysConcat([a[0]], a[1..], level);
      }
    }
  }

  /** The level-2 headings of the report are exactly the top-level keys whose
      values are dicts or lists, in their order; deeper entries never
      surface at level 2. */
  lemma TopLevelHeadings(data: seq<Entry>)
    ensures HeadingKeysAt(Render(data), 2) == ContainerKeys(data)
  {
    SectionsHeadingKeys(data, 2, 0);
    assert data[0..] == data;
    HeadingKeysConcat([ReportTitle], Sections(data, 2, 0), 2);
  }

  lemma {:induction false} FlatItems(items: seq<Value>, level: nat, i: nat)
    requires i <= |items|
    requires forall j :: 0 <= j < |items| ==> !items[j].Obj?
    ensures Items(items, level, i) == seq(|items| - i, j requires 0 <= j < |items| - i => Bullet(items[i + j]))
    decreases |items| - i
  {
    if i < |items| {
      FlatItems(items, level, i + 1);
    }
  }

  /** A list with no dict among its items is a heading followed by exactly one
      bullet per item, in order. */
  lemma FlatListSection(key: string, items: seq<Value>, level: nat)
    requires forall j :: 0 <= j < |items| ==> !items[j].Obj?
    ensures Section(key, Arr(items), level)
         == [Heading(level, key)] + seq(|items|, j requires 0 <= j < |items| => Bullet(items[j]))
  {
    FlatItems(items, level + 1, 0);
  }

  /** One empty key for every dict item of `items`, in order: the keys of the
      anonymous headings those items open. */
  function DictItemKeys(items: seq<Value>): (r: seq<string>)
    ensures |r| <= |items|
    ensures forall k :: 0 <= k < |r| ==> r[k] == ""
  {
    if |items| == 0 then []
    else (if items[0].Obj? then [""] else []) + DictItemKeys(items[1..])
  }

  lemma {:induction false} ItemsHeadingKeys(items: seq<Value>, level: nat, i: nat)
    requires i <= |items|
    ensures HeadingKeysAt(Items(items, level, i), level) == DictItemKeys(items[i..])
    decreases |items| - i
  {
    if i < |items| {
      var x := items[i];
      var a := ItemLines(x, level);
      ItemsHeadingKeys(items, level, i + 1);
      HeadingKeysConcat(a, Items(items, level, i + 1), level);
      assert items[i..][1..] == items[i + 1..];
      ItemLinesShape(x, level);
      if x.Obj? {
        HeadingKeysDeeper(a[1..], level);
        assert a == [a[0]] + a[1..];
        HeadingKeysConcat([a[0]], a[1..], level);
      } else {
        assert a[1..] == [];
      }
    }
  }

  /** One level below a list's heading there is exactly one heading per dict
      item, each with an empty key, and none for any other item. */
  lemma ListHeadingKeys(key: string, items: seq<Value>, level: nat)
    ensures HeadingKeysAt(Section(key, Arr(items), level), level + 1) == DictItemKeys(items)
  {
    ItemsHeadingKeys(items, level + 1, 0);
    assert items[0..] == items;
    HeadingKeysConcat([Heading(level, key)], Items(items, level + 1, 0), level + 1);
  }

  lemma {:induction false} ItemsSuffix(items: seq<Value>, level: nat, j: nat)
    requires j <= |items|
    ensures |Items(items, level, j)| <= |Items(items, level, 0)|
    ensures Items(items, level, 0)[|Items(items, level, 0)| - |Items(items, level, j)|..] == Items(items, level, j)
    decreases j
  {
    if j > 0 {
      ItemsSuffix(items, level, j - 1);
      var s := Items(items, level, 0);
      var t := Items(items, level, j - 1);
      var a := ItemLines(items[j - 1], level);
      assert t == a + Items(items, level, j);
      assert s[|s| - |Items(items, level, j)|..] == s[|s| - |t|..][|a|..];
    }
  }

  /** Where item `j` of a list sits among the lines of the list's items
      (the lines that follow the list's heading): after the lines of the
      items before it and before those of the items after it, the first
      item at the very start and the last one at the very end. */
  lemma ListItemLines(items: seq<Value>, level: nat, j: nat)
    requires j < |items|
    ensures |Items(items, level, j + 1)| < |Items(items, level, j)| <= |Items(items, level, 0)|
    ensures j == 0 ==> Items(items, level, j) == Items(items, level, 0)
    ensures j == |items| - 1 ==> Items(items, level, j + 1) == []
    ensures Items(items, level, 0)[|Items(items, level, 0)| - |Items(items, level, j)|
                                   ..|Items(items, level, 0)| - |Items(items, level, j + 1)|]
         == ItemLines(items[j], level)
  {
    var s := Items(items, level, 0);
    var tj := Items(items, level, j);
    var tk := Items(items, level, j + 1);
    ItemsSuffix(items, level, j);
    var a := ItemLines(items[j], level);
    assert tj == a + tk;
    SuffixBlock(s, |s| - |tj|, a, tk);
  }

  /** A suffix made of a block and a rest: the block sits right at the start
      of the suffix. */
  lemma SuffixBlock(r: seq<Line>, p: nat, a: seq<Line>, t: seq<Line>)
    requires p <= |r| && r[p..] == a + t
    ensures |r| - |t| == p + |a|
    ensures r[p..|r| - |t|] == a
  {
    assert r[p..p + |a|] == (a + t)[..|a|];
  }

  /** The lines of a dict item are its anonymous heading followed by an
      outline of its entries one level deeper; any other item is one bullet
      of its own. */
  lemma ItemLinesShape(x: Value, level: nat)
    ensures !x.Obj? ==> ItemLines(x, level) == [Bullet(x)]
    ensures x.Obj? ==> ItemLines(x, level) == [Heading(level, "")] + Sections(x.fields, level + 1, 0)
    ensures x.Obj? ==> LevelsFrom(ItemLines(x, level)[1..], level + 1) && Outline(ItemLines(x, level)[1..], level + 1)
  {
    if x.Obj? {
      SectionsOutline(x.fields, level + 1, 0);
      assert ItemLines(x, level)[1..] == Sections(x.fields, level + 1, 0);
    }
  }

  lemma RenderNestedFirst()
    ensures Render([("a", Obj([("b", Obj([("c", Int(1))])), ("d", Int(2))]))])
         == [ReportTitle, Heading(2, "a"), Heading(3, "b"), KeyValue("c", Int(1)), KeyValue("d", Int(2))]
  {
    var c, d := KeyValue("c", Int(1)), KeyValue("d", Int(2));
    var b1 := [("c", Int(1))];
    assert Sections(b1, 4, 1) == [];
    assert Sections(b1, 4, 0) == [c];
    var a1 := [("b", Obj(b1)), ("d", Int(2))];
    assert Sections(a1, 3, 1) == [d] by {
      assert Sections(a1, 3, 2) == [];
    }
    assert Sections(a1, 3, 0) == [Heading(3, "b"), c, d] by {
      assert Section("b", Obj(b1), 3) == [Heading(3, "b"), c];
    }
    var top := [("a", Obj(a1))];
    assert Sections(top, 2, 1) == [];
    assert Section("a", Obj(a1), 2) == [Heading(2, "a"), Heading(3, "b"), c, d];
  }

  lemma RenderNestedLast()
    ensures Render([("a", Obj([("b", Obj([("c", Int(1)), ("d", Int(2))]))]))])
         == [ReportTitle, Heading(2, "a"), Heading(3, "b"), KeyValue("c", Int(1)), KeyValue("d", Int(2))]
  {
    var c, d := KeyValue("c", Int(1)), KeyValue("d", Int(2));
    var b2 := [("c", Int(1)), ("d", Int(2))];
    assert Sections(b2, 4, 1) == [d] by {
      assert Sections(b2, 4, 2) == [];
    }
    assert Sections(b2, 4, 0) == [c, d];
    var a2 := [("b", Obj(b2))];
    assert Sections(a2, 3, 0) == [Heading(3, "b"), c, d] by {
      assert Sections(a2, 3, 1) == [];
      assert Section("b", Obj(b2), 3) == [Heading(3, "b"), c, d];
    }
    var top := [("a", Obj(a2))];
    assert Sections(top, 2, 1) == [];
    assert Section("a", Obj(a2), 2) == [Heading(2, "a"), Heading(3, "b"), c, d];
  }

  /** The lines do not determine the nesting: a scalar that follows a nested
      dict reads as if it belonged to that dict, so two different records can
      give the same report. */
  lemma OutlineIsAmbiguous()
    ensures exists d1: seq<Entry>, d2: seq<Entry> :: d1 != d2 && Render(d1) == Render(d2)
  {
    var d1 := [("a", Obj([("b", Obj([("c", Int(1))])), ("d", Int(2))]))];
    var d2 := [("a", Obj([("b", Obj([("c", Int(1)), ("d", Int(2))]))]))];
    RenderNestedFirst();
    RenderNestedLast();
    assert |d1[0].1.fields| != |d2[0].1.fields|;
  }

  /** `n` copies of `#`. */
  function Hashes(n: nat): (r: string)
    ensures |r| == n && forall i :: 0 <= i < n ==> r[i] == '#'
  {
    if n == 0 then "" else "#" + Hashes(n - 1)
  }

  /** `s.replace('_', ' ')`. */
  function SpaceUnderscores(s: string): (r: string)
    ensures |r| == |s|
    ensures forall i :: 0 <= i < |s| ==> r[i] == if s[i] == '_' then ' ' else s[i]
    ensures '_' !in r
  {
    seq(|s|, i requires 0 <= i < |s| => if s[i] == '_' then ' ' else s[i])
  }

  /** The exact string appended for a line, given `str.title` and `str`. */
  function Text(line: Line, titleCase: string -> string, show: Value -> string): (r: string)
    ensures |r| > 0 && r[|r| - 1] == '\n'
    ensures line.Heading? ==>
      |r| > line.level + 2 && r[0] == '\n' && r[1..line.level + 1] == Hashes(line.level) && r[line.level + 1] == ' '
    ensures line.Bullet? ==> |r| >= 3 && r[..2] == "- "
    ensures line.KeyValue? ==> |r| >= 6 && r[..2] == "**" && r[|r| - 2..] == "\n\n"
  {
    match line
    case ReportTitle => "# Content Creator Analysis Report\n"
    case Heading(level, key) => "\n" + Hashes(level) + " " + SpaceUnderscores(titleCase(key)) + "\n"
    case Bullet(item) => "- " + show(item) + "\n"
    case KeyValue(key, value) => "**" + titleCase(key) + ":** " + show(value) + "\n\n"
  }

  /** The file contents: the texts of all lines, in order. */
  function Document(ls: seq<Line>, titleCase: string -> string, show: Value -> string): string {
    if |ls| == 0 then "" else Text(ls[0], titleCase, show) + Document(ls[1..], titleCase, show)
  }

  /** The number of leading `#` characters. */
  function CountHashes(s: string): nat {
    if |s| > 0 && s[0] == '#' then 1 + CountHashes(s[1..]) else 0
  }

  /** Reading a heading level back from a heading's text. */
  function ParseLevel(t: string): nat {
    if |t| > 0 && t[0] == '\n' then CountHashes(t[1..]) else 0
  }

  lemma {:induction false} CountHashesPrefix(n: nat, rest: string)
    requires |rest| > 0 && rest[0] != '#'
    ensures CountHashes(Hashes(n) + rest) == n
  {
    if n > 0 {
      assert (Hashes(n) + rest)[1..] == Hashes(n - 1) + rest;
      CountHashesPrefix(n - 1, rest);
    }
  }

  /** A heading's text gives its level back, whatever the key. */
  lemma HeadingLevelRoundTrip(level: nat, key: string, titleCase: string -> string, show: Value -> string)
    ensures ParseLevel(Text(Heading(level, key), titleCase, show)) == level
  {
    var name := SpaceUnderscores(titleCase(key));
    var rest := " " + name + "\n";
    var t := Text(Heading(level, key), titleCase, show);
    assert t == "\n" + Hashes(level) + " " + name + "\n";
    assert t == "\n" + (Hashes(level) + rest);
    CountHashesPrefix(level, rest);
  }
}

=== FILE: schema.dfy ===
/** The record schemas of models.py: each pydantic model as a datatype, its
    field constraints as a validity predicate, the validator's error list as
    a function that names every broken constraint, a constructor that fills
    the declared defaults and validates, and the `.dict()` dump into the
    nested values the analysis reads, with the reload that inverts it. The
    clock's year, which the source reads once at import time, is the
    `currentYear` parameter. */
module Schema {
  import opened Wrappers
  import opened Json
  import Helpers

  datatype ValueObject = ValueObject(
    name: string,
    origin: string,
    impactToday: string,
    description: Option<string>)

  datatype ChallengeObject = ChallengeObject(
    description: string,
    year: int,
    learnings: string,
    duration: Option<int>)

  /** A `Dict[str, float]` in insertion order: no name occurs twice. */
  type Metrics = ms: seq<(string, real)> | DistinctMetricNames(ms) witness []

  predicate DistinctMetricNames(ms: seq<(string, real)>) {
    forall i, j :: 0 <= i < j < |ms| ==> ms[i].0 != ms[j].0
  }

  datatype AchievementObject = AchievementObject(
    description: string,
    year: int,
    impact: string,
    metrics: Metrics)

  datatype LifeEventObject = LifeEventObject(
    name: string,
    year: int,
    description: string,
    impact: string,
    category: Option<string>)

  datatype BusinessObject = BusinessObject(
    name: string,
    description: string,
    yearStarted: int,
    annualRevenue: Option<real>,
    businessType: string,
    status: string)

  datatype PersonalInfo = PersonalInfo(
    fullName: string,
    channelName: string,
    channelUrl: string,
    niche: string,
    startYear: int,
    country: Option<string>,
    teamSize: int)

  /** `analysis_metadata` is a free-form dict; its default carries the
      clock's timestamp, which the constructor takes as a parameter. */
  datatype ContentCreatorInfo = ContentCreatorInfo(
    personalInfo: PersonalInfo,
    values: seq<ValueObject>,
    challenges: seq<ChallengeObject>,
    achievements: seq<AchievementObject>,
    lifeEvents: seq<LifeEventObject>,
    businesses: seq<BusinessObject>,
    analysisMetadata: Dict)

  /** Where a broken constraint sits: a field, or a position in a list field. */
  datatype Loc = Field(name: string) | Index(i: nat)

  /** The constraint a value breaks. */
  datatype Rule =
    | TooShort(minLength: nat)
    | TooLong(maxLength: nat)
    | TooSmall(lower: int)
    | TooLarge(upper: int)
    | NotOneOf(choices: seq<string>)
    | PatternMismatch
    | Negative
    | FutureYear

  datatype Violation = Violation(at: seq<Loc>, rule: Rule)

  const Categories: seq<string> := ["personal", "professional", "financial"]
  const BusinessTypes: seq<string> := ["merchandise", "courses", "sponsorships", "production", "other"]
  const Statuses: seq<string> := ["active", "inactive", "sold", "acquired"]

  /* ---------------------------------------------------------------- */
  /* Validity: what each model's field declarations promise.           */
  /* ---------------------------------------------------------------- */

  predicate LengthIn(s: string, lo: nat, hi: nat) {
    lo <= |s| <= hi
  }

  predicate OptLengthIn(s: Option<string>, lo: nat, hi: nat) {
    s.Some? ==> lo <= |s.value| <= hi
  }

  predicate ValidValue(v: ValueObject) {
    LengthIn(v.name, 2, 50) && OptLengthIn(v.description, 0, 500)
  }

  predicate ValidChallenge(c: ChallengeObject, currentYear: int) {
    && LengthIn(c.description, 10, 200)
    && 2005 <= c.year <= currentYear
    && LengthIn(c.learnings, 10, 500)
    && (c.duration.Some? ==> 1 <= c.duration.value <= 120)
  }

  /** `metrics` has no declared bounds. */
  predicate ValidAchievement(a: AchievementObject, currentYear: int) {
    && LengthIn(a.description, 10, 200)
    && 2005 <= a.year <= currentYear
    && LengthIn(a.impact, 10, 500)
  }

  predicate ValidLifeEvent(e: LifeEventObject, currentYear: int) {
    && LengthIn(e.name, 2, 100)
    && 1900 <= e.year <= currentYear
    && LengthIn(e.description, 10, 500)
    && LengthIn(e.impact, 10, 500)
    && (e.category.Some? ==> e.category.value in Categories)
  }

  /** The `validate_year_started` validator adds nothing to the year's range. */
  predicate ValidBusiness(b: BusinessObject, currentYear: int) {
    && LengthIn(b.name, 2, 100)
    && LengthIn(b.description, 10, 500)
    && 2005 <= b.yearStarted <= currentYear
    && (b.annualRevenue.Some? ==> b.annualRevenue.value >= 0.0)
    && b.businessType in BusinessTypes
    && b.status in Statuses
  }

  predicate ValidPersonal(p: PersonalInfo, currentYear: int) {
    && LengthIn(p.fullName, 2, 100)
    && LengthIn(p.channelName, 2, 100)
    && Helpers.ChannelUrlMatches(p.channelUrl)
    && LengthIn(p.niche, 2, 50)
    && 2005 <= p.startYear <= currentYear
    && OptLengthIn(p.country, 2, 56)
    && 1 <= p.teamSize <= 1000
  }

  /** A creator is valid exactly when its personal information and every
      element of every list are. */
  predicate ValidCreator(c: ContentCreatorInfo, currentYear: int) {
    && ValidPersonal(c.personalInfo, currentYear)
    && ValidValues(c.values)
    && ValidChallenges(c.challenges, currentYear)
    && ValidAchievements(c.achievements, currentYear)
    && ValidLifeEvents(c.lifeEvents, currentYear)
    && ValidBusinesses(c.businesses, currentYear)
  }

  predicate ValidValues(items: seq<ValueObject>) {
    forall i :: 0 <= i < |items| ==> ValidValue(items[i])
  }

  predicate ValidChallenges(items: seq<ChallengeObject>, currentYear: int) {
    forall i :: 0 <= i < |items| ==> ValidChallenge(items[i], currentYear)
  }

  predicate ValidAchievements(items: seq<AchievementObject>, currentYear: int) {
    forall i :: 0 <= i < |items| ==> ValidAchievement(items[i], currentYear)
  }

  predicate ValidLifeEvents(items: seq<LifeEventObject>, currentYear: int) {
    forall i :: 0 <= i < |items| ==> ValidLifeEvent(items[i], currentYear)
  }

  predicate ValidBusinesses(items: seq<BusinessObject>, currentYear: int) {
    forall i :: 0 <= i < |items| ==> ValidBusiness(items[i], currentYear)
  }

  /* ---------------------------------------------------------------- */
  /* The validator: every broken constraint, in field order.           */
  /* ---------------------------------------------------------------- */

  /** The fields of the record that the violations sit at, or under. */
  function Heads(vs: seq<Violation>): set<string> {
    if vs == [] then {}
    else (if |vs[0].at| >= 1 && vs[0].at[0].Field? then {vs[0].at[0].name} else {}) + Heads(vs[1..])
  }

  /** Every violation sits at a field of the record itself, not inside a
      nested value. */
  predicate Direct(vs: seq<Violation>) {
    forall e :: e in vs ==> |e.at| == 1 && e.at[0].Field?
  }

  /** The field `field` when its constraint `ok` is broken, no field otherwise. */
  function Unless(ok: bool, field: string): set<string> {
    if ok then {} else {field}
  }

  /** `Heads` read element-wise: `f` is blamed exactly when some violation's
      location starts at `f`. */
  lemma {:induction false} HeadsMeans(vs: seq<Violation>, f: string)
    ensures f in Heads(vs) <==> exists e :: e in vs && |e.at| >= 1 && e.at[0] == Field(f)
  {
    if vs != [] {
      HeadsMeans(vs[1..], f);
      assert vs[0] in vs;
      forall e | e in vs[1..] ensures e in vs {
      }
      if exists e :: e in vs && |e.at| >= 1 && e.at[0] == Field(f) {
        var e :| e in vs && |e.at| >= 1 && e.at[0] == Field(f);
        if e != vs[0] {
          assert e in vs[1..];
        }
      }
    }
  }

  lemma {:induction false} HeadsAppend(a: seq<Violation>, b: seq<Violation>)
    ensures Heads(a + b) == Heads(a) + Heads(b)
  {
    if a != [] {
      assert (a + b)[1..] == a[1..] + b;
      HeadsAppend(a[1..], b);
    } else {
      assert a + b == b;
    }
  }

  /** Violations that all sit at or under `field` blame that field alone, and
      do so as soon as there is one. */
  lemma {:induction false} HeadsAllUnder(vs: seq<Violation>, field: string)
    requires forall e :: e in vs ==> |e.at| >= 1 && e.at[0] == Field(field)
    ensures Heads(vs) == Unless(vs == [], field)
  {
    if vs != [] {
      assert vs[0] in vs;
      forall e | e in vs[1..] ensures |e.at| >= 1 && e.at[0] == Field(field) {
        assert e in vs;
      }
      HeadsAllUnder(vs[1..], field);
    }
  }

  /** What one field's check reports: nothing when its constraint `ok` holds,
      otherwise one violation of `rule` at the field. */
  function Report(ok: bool, field: string, rule: Rule): (r: seq<Violation>)
    ensures r == [] <==> ok
    ensures forall e :: e in r ==> e == Violation([Field(field)], rule)
    ensures Heads(r) == Unless(ok, field) && Direct(r)
  {
    if ok then [] else [Violation([Field(field)], rule)]
  }

  /** `min_length` / `max_length` on a string field. */
  function CheckLength(field: string, s: string, lo: nat, hi: nat): (r: seq<Violation>)
    ensures r == [] <==> LengthIn(s, lo, hi)
    ensures r != [] ==> r == [Violation([Field(field)], if |s| < lo then TooShort(lo) else TooLong(hi))]
    ensures Heads(r) == Unless(LengthIn(s, lo, hi), field) && Direct(r)
  {
    Report(LengthIn(s, lo, hi), field, if |s| < lo then TooShort(lo) else TooLong(hi))
  }

  /** The same bounds on an optional field: `None` is always accepted. */
  function CheckOptLength(field: string, s: Option<string>, lo: nat, hi: nat): (r: seq<Violation>)
    ensures r == [] <==> OptLengthIn(s, lo, hi)
    ensures r != [] ==> r == [Violation([Field(field)], if |s.value| < lo then TooShort(lo) else TooLong(hi))]
    ensures Heads(r) == Unless(OptLengthIn(s, lo, hi), field) && Direct(r)
  {
    if s.Some? then CheckLength(field, s.value, lo, hi) else []
  }

  /** `ge` / `le` on an integer field. */
  function CheckRange(field: string, x: int, lo: int, hi: int): (r: seq<Violation>)
    ensures r == [] <==> lo <= x <= hi
    ensures r != [] ==> r == [Violation([Field(field)], if x < lo then TooSmall(lo) else TooLarge(hi))]
    ensures Heads(r) == Unless(lo <= x <= hi, field) && Direct(r)
  {
    Report(lo <= x <= hi, field, if x < lo then TooSmall(lo) else TooLarge(hi))
  }

  /** A `^(a|b|...)$` pattern on a string field. */
  function CheckChoice(field: string, s: string, choices: seq<string>): (r: seq<Violation>)
    ensures r == [] <==> s in choices
    ensures r != [] ==> r == [Violation([Field(field)], NotOneOf(choices))]
    ensures Heads(r) == Unless(s in choices, field) && Direct(r)
  {
    Report(s in choices, field, NotOneOf(choices))
  }

  lemma DirectAppend(a: seq<Violation>, b: seq<Violation>)
    requires Direct(a) && Direct(b)
    ensures Direct(a + b)
  {
  }

  function ValueViolations(v: ValueObject): (r: seq<Violation>)
    ensures r == [] <==> ValidValue(v)
    ensures Direct(r)
    ensures Heads(r) == Unless(LengthIn(v.name, 2, 50), "name") + Unless(OptLengthIn(v.description, 0, 500), "description")
  {
    var n := CheckLength("name", v.name, 2, 50);
    var d := CheckOptLength("description", v.description, 0, 500);
    HeadsAppend(n, d);
    n + d
  }

  function ChallengeViolations(c: ChallengeObject, currentYear: int): (r: seq<Violation>)
    ensures r == [] <==> ValidChallenge(c, currentYear)
    ensures Direct(r)
    ensures Heads(r) ==
      Unless(LengthIn(c.description, 10, 200), "description")
      + Unless(2005 <= c.year <= currentYear, "year")
      + Unless(LengthIn(c.learnings, 10, 500), "learnings")
      + Unless(c.duration.None? || 1 <= c.duration.value <= 120, "duration")
  {
    var d := CheckLength("description", c.description, 10, 200);
    var y := CheckRange("year", c.year, 2005, currentYear);
    var l := CheckLength("learnings", c.learnings, 10, 500);
    var u := if c.duration.Some? then CheckRange("duration", c.duration.value, 1, 120) else [];
    assert Heads(u) == Unless(c.duration.None? || 1 <= c.duration.value <= 120, "duration");
    HeadsAppend(d, y);
    HeadsAppend(d + y, l);
    HeadsAppend(d + y + l, u);
    DirectAppend(d, y);
    DirectAppend(d + y, l);
    DirectAppend(d + y + l, u);
    d + y + l + u
  }

  function AchievementViolations(a: AchievementObject, currentYear: int): (r: seq<Violation>)
    ensures r == [] <==> ValidAchievement(a, currentYear)
    ensures Direct(r)
    ensures Heads(r) ==
      Unless(LengthIn(a.description, 10, 200), "description")
      + Unless(2005 <= a.year <= currentYear, "year")
      + Unless(LengthIn(a.impact, 10, 500), "impact")
  {
    var d := CheckLength("description", a.description, 10, 200);
    var y := CheckRange("year", a.year, 2005, currentYear);
    var m := CheckLength("impact", a.impact, 10, 500);
    HeadsAppend(d, y);
    HeadsAppend(d + y, m);
    DirectAppend(d, y);
    DirectAppend(d + y, m);
    d + y + m
  }

  function LifeEventViolations(e: LifeEventObject, currentYear: int): (r: seq<Violation>)
    ensures r == [] <==> ValidLifeEvent(e, currentYear)
    ensures Direct(r)
    ensures Heads(r) ==
      Unless(LengthIn(e.name, 2, 100), "name")
      + Unless(1900 <= e.year <= currentYear, "year")
      + Unless(LengthIn(e.description, 10, 500), "description")
      + Unless(LengthIn(e.impact, 10, 500), "impact")
      + Unless(e.category.None? || e.category.value in Categories, "category")
  {
    var n := CheckLength("name", e.name, 2, 100);
    var y := CheckRange("year", e.year, 1900, currentYear);
    var d := CheckLength("description", e.description, 10, 500);
    var m := CheckLength("impact", e.impact, 10, 500);
    var k := if e.category.Some? then CheckChoice("category", e.category.value, Categories) else [];
    assert Heads(k) == Unless(e.category.None? || e.category.value in Categories, "category");
    HeadsAppend(n, y);
    HeadsAppend(n + y, d);
    HeadsAppend(n + y + d, m);
    HeadsAppend(n + y + d + m, k);
    DirectAppend(n, y);
    DirectAppend(n + y, d);
    DirectAppend(n + y + d, m);
    DirectAppend(n + y + d + m, k);
    n + y + d + m + k
  }

  /** `validate_year_started` runs after the field's own bounds, and only when
      they hold. */
  function YearStartedViolations(year: int, currentYear: int): (r: seq<Violation>)
    ensures r == [] <==> 2005 <= year <= currentYear
    ensures r != [] ==> r == [Violation([Field("year_started")], if year < 2005 then TooSmall(2005) else TooLarge(currentYear))]
    ensures forall e :: e in r ==> e.rule != FutureYear
    ensures Heads(r) == Unless(2005 <= year <= currentYear, "year_started") && Direct(r)
  {
    var bounds := CheckRange("year_started", year, 2005, currentYear);
    if bounds != [] then bounds
    else if year > currentYear then [Violation([Field("year_started")], FutureYear)]
    else []
  }

  function BusinessViolations(b: BusinessObject, currentYear: int): (r: seq<Violation>)
    ensures r == [] <==> ValidBusiness(b, currentYear)
    ensures Direct(r)
    ensures Heads(r) ==
      Unless(LengthIn(b.name, 2, 100), "name")
      + Unless(LengthIn(b.description, 10, 500), "description")
      + Unless(2005 <= b.yearStarted <= currentYear, "year_started")
      + Unless(b.annualRevenue.None? || b.annualRevenue.value >= 0.0, "annual_revenue")
      + Unless(b.businessType in BusinessTypes, "business_type")
      + Unless(b.status in Statuses, "status")
  {
    var n := CheckLength("name", b.name, 2, 100);
    var d := CheckLength("description", b.description, 10, 500);
    var y := YearStartedViolations(b.yearStarted, currentYear);
    var v := Report(b.annualRevenue.None? || b.annualRevenue.value >= 0.0, "annual_revenue", Negative);
    var t := CheckChoice("business_type", b.businessType, BusinessTypes);
    var s := CheckChoice("status", b.status, Statuses);
    HeadsAppend(n, d);
    HeadsAppend(n + d, y);
    HeadsAppend(n + d + y, v);
    HeadsAppend(n + d + y + v, t);
    HeadsAppend(n + d + y + v + t, s);
    DirectAppend(n, d);
    DirectAppend(n + d, y);
    DirectAppend(n + d + y, v);
    DirectAppend(n + d + y + v, t);
    DirectAppend(n + d + y + v + t, s);
    n + d + y + v + t + s
  }

  function PersonalViolations(p: PersonalInfo, currentYear: int): (r: seq<Violation>)
    ensures r == [] <==> ValidPersonal(p, currentYear)
    ensures Direct(r)
    ensures Heads(r) ==
      Unless(LengthIn(p.fullName, 2, 100), "full_name")
      + Unless(LengthIn(p.channelName, 2, 100), "channel_name")
      + Unless(Helpers.ChannelUrlMatches(p.channelUrl), "channel_url")
      + Unless(LengthIn(p.niche, 2, 50), "niche")
      + Unless(2005 <= p.startYear <= currentYear, "start_year")
      + Unless(OptLengthIn(p.country, 2, 56), "country")
      + Unless(1 <= p.teamSize <= 1000, "team_size")
  {
    var f := CheckLength("full_name", p.fullName, 2, 100);
    var c := CheckLength("channel_name", p.channelName, 2, 100);
    var u := Report(Helpers.ChannelUrlMatches(p.channelUrl), "channel_url", PatternMismatch);
    var n := CheckLength("niche", p.niche, 2, 50);
    var y := CheckRange("start_year", p.startYear, 2005, currentYear);
    var k := CheckOptLength("country", p.country, 2, 56);
    var t := CheckRange("team_size", p.teamSize, 1, 1000);
    HeadsAppend(f, c);
    HeadsAppend(f + c, u);
    HeadsAppend(f + c + u, n);
    HeadsAppend(f + c + u + n, y);
    HeadsAppend(f + c + u + n + y, k);
    HeadsAppend(f + c + u + n + y + k, t);
    DirectAppend(f, c);
    DirectAppend(f + c, u);
    DirectAppend(f + c + u, n);
    DirectAppend(f + c + u + n, y);
    DirectAppend(f + c + u + n + y, k);
    DirectAppend(f + c + u + n + y + k, t);
    f + c + u + n + y + k + t
  }

  /** Every violation of an element, located under the element's field and
      position. */
  function Under(field: string, i: nat, vs: seq<Violation>): (r: seq<Violation>)
    ensures |r| == |vs|
    ensures forall k :: 0 <= k < |r| ==> r[k] == Violation([Field(field), Index(i)] + vs[k].at, vs[k].rule)
  {
    seq(|vs|, k requires 0 <= k < |vs| => Violation([Field(field), Index(i)] + vs[k].at, vs[k].rule))
  }

  /** The violations of the elements of a list field from position `from` on. */
  function ListViolations<T>(field: string, items: seq<T>, check: T -> seq<Violation>, from: nat): (r: seq<Violation>)
    requires from <= |items|
    ensures r == [] <==> forall i :: from <= i < |items| ==> check(items[i]) == []
    ensures forall e :: e in r ==>
      && |e.at| >= 2 && e.at[0] == Field(field) && e.at[1].Index?
      && from <= e.at[1].i < |items| && check(items[e.at[1].i]) != []
    decreases |items| - from
  {
    if from == |items| then []
    else
      var here := Under(field, from, check(items[from]));
      var rest := ListViolations(field, items, check, from + 1);
      assert forall e :: e in here ==> e.at[1] == Index(from) by {
        forall e | e in here ensures e.at[1] == Index(from) {
          var k :| 0 <= k < |here| && here[k] == e;
        }
      }
      here + rest
  }

  /** The violations of every element of each list field of a creator. */
  function ValuesViolations(items: seq<ValueObject>): (r: seq<Violation>)
    ensures r == [] <==> ValidValues(items)
    ensures Heads(r) == Unless(ValidValues(items), "values")
  {
    var r := ListViolations("values", items, ValueViolations, 0);
    HeadsAllUnder(r, "values");
    r
  }

  function ChallengesViolations(items: seq<ChallengeObject>, currentYear: int): (r: seq<Violation>)
    ensures r == [] <==> ValidChallenges(items, currentYear)
    ensures Heads(r) == Unless(ValidChallenges(items, currentYear), "challenges")
  {
    var r := ListViolations("challenges", items, (x: ChallengeObject) => ChallengeViolations(x, currentYear), 0);
    HeadsAllUnder(r, "challenges");
    r
  }

  function AchievementsViolations(items: seq<AchievementObject>, currentYear: int): (r: seq<Violation>)
    ensures r == [] <==> ValidAchievements(items, currentYear)
    ensures Heads(r) == Unless(ValidAchievements(items, currentYear), "achievements")
  {
    var r := ListViolations("achievements", items, (x: AchievementObject) => AchievementViolations(x, currentYear), 0);
    HeadsAllUnder(r, "achievements");
    r
  }

  function LifeEventsViolations(items: seq<LifeEventObject>, currentYear: int): (r: seq<Violation>)
    ensures r == [] <==> ValidLifeEvents(items, currentYear)
    ensures Heads(r) == Unless(ValidLifeEvents(items, currentYear), "life_events")
  {
    var r := ListViolations("life_events", items, (x: LifeEventObject) => LifeEventViolations(x, currentYear), 0);
    HeadsAllUnder(r, "life_events");
    r
  }

  function BusinessesViolations(items: seq<BusinessObject>, currentYear: int): (r: seq<Violation>)
    ensures r == [] <==> ValidBusinesses(items, currentYear)
    ensures Heads(r) == Unless(ValidBusinesses(items, currentYear), "businesses")
  {
    var r := ListViolations("businesses", items, (x: BusinessObject) => BusinessViolations(x, currentYear), 0);
    HeadsAllUnder(r, "businesses");
    r
  }

  /** Every broken constraint of a creator: the personal information first,
      then each list in field order, each element's violations located by the
      list's name and the element's position. */
  function CreatorViolations(c: ContentCreatorInfo, currentYear: int): (r: seq<Violation>)
    ensures r == [] <==> ValidCreator(c, currentYear)
    ensures Heads(r) ==
      Unless(ValidPersonal(c.personalInfo, currentYear), "personal_info")
      + Unless(ValidValues(c.values), "values")
      + Unless(ValidChallenges(c.challenges, currentYear), "challenges")
      + Unless(ValidAchievements(c.achievements, currentYear), "achievements")
      + Unless(ValidLifeEvents(c.lifeEvents, currentYear), "life_events")
      + Unless(ValidBusinesses(c.businesses, currentYear), "businesses")
  {
    var p := Under1("personal_info", PersonalViolations(c.personalInfo, currentYear));
    var v := ValuesViolations(c.values);
    var h := ChallengesViolations(c.challenges, currentYear);
    var a := AchievementsViolations(c.achievements, currentYear);
    var l := LifeEventsViolations(c.lifeEvents, currentYear);
    var b := BusinessesViolations(c.businesses, currentYear);
    HeadsAppend(p, v);
    HeadsAppend(p + v, h);
    HeadsAppend(p + v + h, a);
    HeadsAppend(p + v + h + a, l);
    HeadsAppend(p + v + h + a + l, b);
    p + v + h + a + l + b
  }

  /** The violations of a nested model, located under its field. */
  function Under1(field: string, vs: seq<Violation>): (r: seq<Violation>)
    ensures |r| == |vs|
    ensures forall k :: 0 <= k < |r| ==> r[k] == Violation([Field(field)] + vs[k].at, vs[k].rule)
    ensures Heads(r) == Unless(vs == [], field)
  {
    var r := seq(|vs|, k requires 0 <= k < |vs| => Violation([Field(field)] + vs[k].at, vs[k].rule));
    forall e | e in r ensures |e.at| >= 1 && e.at[0] == Field(field) {
      var k :| 0 <= k < |r| && r[k] == e;
    }
    HeadsAllUnder(r, field);
    r
  }

  /** The year check of `BusinessObject` never reports the validator's own
      error: whatever the validator would reject, the range has rejected
      already. */
  lemma BusinessValidatorRedundant(b: BusinessObject, currentYear: int)
    ensures forall e :: e in BusinessViolations(b, currentYear) ==> e.rule != FutureYear
  {
    var n := CheckLength("name", b.name, 2, 100);
    var d := CheckLength("description", b.description, 10, 500);
    var y := YearStartedViolations(b.yearStarted, currentYear);
    var v := Report(b.annualRevenue.None? || b.annualRevenue.value >= 0.0, "annual_revenue", Negative);
    var t := CheckChoice("business_type", b.businessType, BusinessTypes);
    var s := CheckChoice("status", b.status, Statuses);
    assert BusinessViolations(b, currentYear) == n + d + y + v + t + s;
    forall e: Violation | e in n + d + y + v + t + s ensures e.rule != FutureYear {
      assert e in n || e in d || e in y || e in v || e in t || e in s;
    }
  }

  /* ---------------------------------------------------------------- */
  /* Constructors: defaults filled in, then validated.                 */
  /* ---------------------------------------------------------------- */

  function OrElse<T>(o: Option<T>, default: T): (r: T)
    ensures o.Some? ==> r == o.value
    ensures o.None? ==> r == default
  {
    if o.Some? then o.value else default
  }

  /** Success with the record when nothing is broken, otherwise the list of
      everything that is. */
  function Checked<T>(record: T, violations: seq<Violation>): (r: Result<T, seq<Violation>>)
    ensures r.Success? <==> violations == []
    ensures r.Success? ==> r.value == record
    ensures r.Failure? ==> r.error == violations
  {
    if violations == [] then Success(record) else Failure(violations)
  }

  /** `ValueObject(...)`; `origin` defaults to "Personal belief". */
  function NewValue(name: string, origin: Option<string>, impactToday: string, description: Option<string>)
    : (r: Result<ValueObject, seq<Violation>>)
    ensures r.Success? <==> LengthIn(name, 2, 50) && OptLengthIn(description, 0, 500)
    ensures r.Success? ==> r.value.name == name && r.value.impactToday == impactToday && r.value.description == description
    ensures r.Success? && origin.None? ==> r.value.origin == "Personal belief"
    ensures r.Success? && origin.Some? ==> r.value.origin == origin.value
    ensures r.Failure? ==> r.error == ValueViolations(ValueObject(name, OrElse(origin, "Personal belief"), impactToday, description))
  {
    var v := ValueObject(name, OrElse(origin, "Personal belief"), impactToday, description);
    Checked(v, ValueViolations(v))
  }

  /** `ChallengeObject(...)`; `duration` defaults to None. */
  function NewChallenge(description: string, year: int, learnings: string, duration: Option<int>, currentYear: int)
    : (r: Result<ChallengeObject, seq<Violation>>)
    ensures r.Success? <==> ValidChallenge(ChallengeObject(description, year, learnings, duration), currentYear)
    ensures r.Success? ==> r.value == ChallengeObject(description, year, learnings, duration)
    ensures r.Success? ==> 2005 <= r.value.year <= currentYear
    ensures r.Failure? ==> r.error == ChallengeViolations(ChallengeObject(description, year, learnings, duration), currentYear)
  {
    var c := ChallengeObject(description, year, learnings, duration);
    Checked(c, ChallengeViolations(c, currentYear))
  }

  /** `AchievementObject(...)`; `metrics` defaults to an empty dict. */
  function NewAchievement(description: string, year: int, impact: string, metrics: Option<Metrics>, currentYear: int)
    : (r: Result<AchievementObject, seq<Violation>>)
    ensures r.Success? <==> LengthIn(description, 10, 200) && 2005 <= year <= currentYear && LengthIn(impact, 10, 500)
    ensures r.Success? ==> r.value.metrics == (if metrics.Some? then metrics.value else [])
    ensures r.Success? ==> r.value.description == description && r.value.year == year && r.value.impact == impact
    ensures r.Failure? ==> r.error == AchievementViolations(AchievementObject(description, year, impact, OrElse(metrics, [])), currentYear)
  {
    var a := AchievementObject(description, year, impact, OrElse(metrics, []));
    Checked(a, AchievementViolations(a, currentYear))
  }

  /** `LifeEventObject(...)`; `category` defaults to None. */
  function NewLifeEvent(name: string, year: int, description: string, impact: string, category: Option<string>, currentYear: int)
    : (r: Result<LifeEventObject, seq<Violation>>)
    ensures r.Success? <==> ValidLifeEvent(LifeEventObject(name, year, description, impact, category), currentYear)
    ensures r.Success? ==> r.value == LifeEventObject(name, year, description, impact, category)
    ensures r.Success? ==> 1900 <= r.value.year <= currentYear
    ensures r.Failure? ==> r.error == LifeEventViolations(LifeEventObject(name, year, description, impact, category), currentYear)
  {
    var e := LifeEventObject(name, year, description, impact, category);
    Checked(e, LifeEventViolations(e, currentYear))
  }

  /** `BusinessObject(...)`; `annual_revenue` defaults to None and `status`
      to "active". */
  function NewBusiness(name: string, description: string, yearStarted: int, annualRevenue: Option<real>,
                       businessType: string, status: Option<string>, currentYear: int)
    : (r: Result<BusinessObject, seq<Violation>>)
    ensures r.Success? <==>
      ValidBusiness(BusinessObject(name, description, yearStarted, annualRevenue, businessType, OrElse(status, "active")), currentYear)
    ensures r.Success? ==> r.value == BusinessObject(name, description, yearStarted, annualRevenue, businessType, OrElse(status, "active"))
    ensures r.Success? ==> r.value.status == (if status.Some? then status.value else "active")
    ensures r.Success? ==> r.value.businessType in BusinessTypes && r.value.status in Statuses
    ensures r.Failure? ==> r.error == BusinessViolations(BusinessObject(name, description, yearStarted, annualRevenue, businessType, OrElse(status, "active")), currentYear)
  {
    var b := BusinessObject(name, description, yearStarted, annualRevenue, businessType, OrElse(status, "active"));
    Checked(b, BusinessViolations(b, currentYear))
  }

  /** `PersonalInfo(...)`; `country` defaults to None and `team_size` to 1. */
  function NewPersonal(fullName: string, channelName: string, channelUrl: string, niche: string,
                       startYear: int, country: Option<string>, teamSize: Option<int>, currentYear: int)
    : (r: Result<PersonalInfo, seq<Violation>>)
    ensures r.Success? <==>
      ValidPersonal(PersonalInfo(fullName, channelName, channelUrl, niche, startYear, country, OrElse(teamSize, 1)), currentYear)
    ensures r.Success? ==> r.value == PersonalInfo(fullName, channelName, channelUrl, niche, startYear, country, OrElse(teamSize, 1))
    ensures r.Success? ==> r.value.teamSize == (if teamSize.Some? then teamSize.value else 1)
    ensures r.Success? ==> Helpers.ChannelUrlMatches(r.value.channelUrl) && 1 <= r.value.teamSize <= 1000
    ensures r.Failure? ==> r.error == PersonalViolations(PersonalInfo(fullName, channelName, channelUrl, niche, startYear, country, OrElse(teamSize, 1)), currentYear)
  {
    var p := PersonalInfo(fullName, channelName, channelUrl, niche, startYear, country, OrElse(teamSize, 1));
    Checked(p, PersonalViolations(p, currentYear))
  }

  /** The `analysis_metadata` default, with the clock's ISO timestamp as a
      parameter. */
  function DefaultMetadata(now: string): (r: Dict)
    ensures DistinctKeys(r) && Lookup(r, "analysis_version") == Some(Str("1.0"))
  {
    var fs := [("last_updated", Str(now)), ("analysis_version", Str("1.0"))];
    assert DistinctKeys(fs) by {
      assert fs[0].0[0] != fs[1].0[0];
    }
    assert WellFormed(fs[0].1) && WellFormed(fs[1].1);
    fs
  }

  /** `ContentCreatorInfo(...)`: every list defaults to empty. Nested models
      arrive already built, and pydantic does not validate them again; the
      model re-checks their validity under this `currentYear`. The two agree
      while the clock reads the year the models were defined in, and as long
      as no nested instance was changed after it was built (pydantic does
      not validate assignment, so such an instance is accepted). */
  function NewCreator(personalInfo: PersonalInfo, values: Option<seq<ValueObject>>, challenges: Option<seq<ChallengeObject>>,
                      achievements: Option<seq<AchievementObject>>, lifeEvents: Option<seq<LifeEventObject>>,
                      businesses: Option<seq<BusinessObject>>, metadata: Option<Dict>, now: string, currentYear: int)
    : (r: Result<ContentCreatorInfo, seq<Violation>>)
    ensures r.Success? <==> ValidCreator(WithDefaults(personalInfo, values, challenges, achievements, lifeEvents, businesses, metadata, now), currentYear)
    ensures r.Failure? ==> r.error != []
    ensures r.Failure? ==> r.error == CreatorViolations(WithDefaults(personalInfo, values, challenges, achievements, lifeEvents, businesses, metadata, now), currentYear)
    ensures r.Success? ==> r.value == WithDefaults(personalInfo, values, challenges, achievements, lifeEvents, businesses, metadata, now)
    ensures r.Success? ==> r.value.personalInfo == personalInfo
    ensures r.Success? && values.None? ==> r.value.values == []
    ensures r.Success? && challenges.None? ==> r.value.challenges == []
    ensures r.Success? && achievements.None? ==> r.value.achievements == []
    ensures r.Success? && businesses.None? ==> r.value.businesses == []
    ensures r.Success? && lifeEvents.None? ==> r.value.lifeEvents == []
    ensures r.Success? && metadata.None? ==> r.value.analysisMetadata == DefaultMetadata(now)
  {
    var c := WithDefaults(personalInfo, values, challenges, achievements, lifeEvents, businesses, metadata, now);
    Checked(c, CreatorViolations(c, currentYear))
  }

  /** The creator the arguments describe once the declared defaults fill the
      omitted fields. */
  function WithDefaults(personalInfo: PersonalInfo, values: Option<seq<ValueObject>>, challenges: Option<seq<ChallengeObject>>,
                        achievements: Option<seq<AchievementObject>>, lifeEvents: Option<seq<LifeEventObject>>,
                        businesses: Option<seq<BusinessObject>>, metadata: Option<Dict>, now: string): (c: ContentCreatorInfo)
    ensures c.personalInfo == personalInfo
    ensures values.Some? ==> c.values == values.value
    ensures challenges.Some? ==> c.challenges == challenges.value
    ensures achievements.Some? ==> c.achievements == achievements.value
    ensures lifeEvents.Some? ==> c.lifeEvents == lifeEvents.value
    ensures businesses.Some? ==> c.businesses == businesses.value
    ensures metadata.Some? ==> c.analysisMetadata == metadata.value
  {
    ContentCreatorInfo(personalInfo, OrElse(values, []), OrElse(challenges, []), OrElse(achievements, []),
                       OrElse(lifeEvents, []), OrElse(businesses, []), OrElse(metadata, DefaultMetadata(now)))
  }
}

=== FILE: wrappers.dfy ===
/** Option and Result, the two failure-carrying datatypes the rest of the model
    uses in place of Python's None and raised exceptions. */
module Wrappers {

  /** Absence without a reason. Usable with `:-`. */
  datatype Option<+T> = None | Some(value: T) {

    predicate IsFailure() {
      None?
    }

    function PropagateFailure<U>(): Option<U>
      requires None?
    {
      None
    }

    function Extract(): T
      requires Some?
    {
      value
    }
  }

  /** Success carries the value an operation returns; Failure carries the
      exception it raises. Usable with `:-`. */
  datatype Result<+T, +E> = Success(value: T) | Failure(error: E) {

    predicate IsFailure() {
      Failure?
    }

    function PropagateFailure<U>(): Result<U, E>
      requires Failure?
    {
      Failure(error)
    }

    function Extract(): T
      requires Success?
    {
      value
    }
  }
}
